=== FILE: README.md ===
# Race-timing console record decoder, modelled in Dafny

A race-timing console sends its memory as fixed five-byte records. Each
byte packs two decimal digits with the nibbles swapped: the low nibble is
the tens digit and the high nibble is the ones digit. The first decoded
integer is a type code. The code selects a record class: race header,
finisher lap time, absolute time, average lap, fastest lap, race end, or an
auxiliary class. The repository holds two revisions of the pipeline that
turns the byte stream into records and then into race output.

- **dt2000** (`dt2000.py`):
  - decodes leniently, because its digit checks are commented out;
  - returns no record for an unknown type code;
  - corrects lap counters that wrapped past 99;
  - aggregates finishers into a running H:M:S.hundredths clock and checks each finisher's count against the record's lap number.
- **ultrak498** (`ultrak498-master/ultrak498.py`):
  - decodes strictly;
  - raises on an unknown type code;
  - uses the same corrector and framing;
  - prints the AbsTime records of one requested race as CSV rows.

The modules follow the program's parts:

| file | module | models |
|---|---|---|
| outcomes.dfy | `Outcomes` | `Option`, and `Result` with the error kinds the programs raise |
| bcd.dfy | `Bcd` | lenient and strict `bcd_to_int` and `bcd_string_to_integer_list`, plus the inverse encoder |
| records.dfy | `Records` | the named-tuple classes as one datatype, and table-driven classification |
| corrector.dfy | `Corrector` | `adjust_lap_hundreds`, with its function-attribute counters as an explicit `Offsets` value |
| framing.dfy | `Framing` | the five-byte framing of `readRecord` |
| dt2000.dfy | `Dt2000` | the dt2000 table, classifier, record reader and the whole program run |
| raceclock.dfy | `RaceClock` | the dt2000 race aggregator loop |
| ultrak498.dfy | `Ultrak498` | the ultrak498 table, classifier, record reader and the whole program run |
| racefilter.dfy | `RaceFilter` | the ultrak498 race-id/AbsTime CSV filter |

Both programs read the whole stream into a list (`readRecords`) before
their main loop looks at any record, so each `Session` reads and corrects
the whole stream first and only then runs the loop.

Raised exceptions become `Err` values of `Result`. The aggregator's output
becomes one `Option<Event>` per record processed, `None` where nothing is printed. The filter's printed CSV lines become `Row`
values.

## Model

| member | source | states |
|---|---|---|
| Bcd.DecodeLenient | dt2000.py:24-49 | Never fails on a byte. The result is at most 165. For a byte whose nibbles are both digits it is 0..99, with tens = low nibble and ones = high nibble. A low nibble above 9 gives a result of at least 100. |
| Bcd.DecodeStrict | ultrak498-master/ultrak498.py:48-72 | Succeeds exactly when both nibbles are digits, and then agrees with the lenient decoder and stays below 100. The tens nibble is checked first: a bad low nibble raises for the tens place even when the high nibble is also bad. Otherwise a bad high nibble raises for the ones place. |
| Bcd.Encode | ultrak498-master/ultrak498.py:48-72 | For every value 0..99 there is a valid BCD byte that strictly decodes back to it. |
| Bcd.EncodeDecode | ultrak498-master/ultrak498.py:63-72 | Every valid byte is the encoding of its decoded value, so strict decoding is injective on valid bytes. |
| Bcd.LenientDecodeCollides | dt2000.py:40-49 | Without the digit checks, the invalid byte 0xA0 and the valid byte 0x01 both decode to 10. |
| Bcd.DecodeAllLenient | dt2000.py:52-57 | Same length as the input; element i is the lenient decoding of byte i. |
| Bcd.DecodeAllStrict | ultrak498-master/ultrak498.py:75-80 | Succeeds exactly when every byte is valid BCD, and then equals the elementwise decoding. On failure it reports the error of the first invalid byte; every byte before it is valid. |
| Bcd.DecodedValidBytesBelow100 | ultrak498-master/ultrak498.py:75-80 | Decoding valid bytes yields only values 0..99. |
| Bcd.DecodeByteVectors | utest/test_dt2000.py:32-78 | The single-byte pairs of the decoder tests, e.g. 0x01 to 10, 0x24 to 42, 0x99 to 99. |
| Bcd.DecodeStrictRejects | ultrak498-master/utest/test_ultrak498.py:84-90 | 0xA0 raises for the ones place and 0x0A raises for the tens place. |
| Bcd.DecodeStringVectors | ultrak498-master/utest/test_ultrak498.py:93-107 | The empty string, [0x32], [0x52,0x21] and the five-byte string decode to [], [23], [25,12] and [11..15]. |
| Records.Make | ultrak498-master/ultrak498.py:122 | `_make` builds a record of the requested class whose five fields are the integers, in order. |
| Records.WithLap | ultrak498-master/ultrak498.py:145 | `_replace(lap=...)` keeps the class and the first four fields and sets the lap. |
| Records.MakeFieldsRoundTrip | ultrak498-master/ultrak498.py:122 | A record is rebuilt exactly from its class and its five fields. |
| Records.ClassifyWith | dt2000.py:143-160 | A length other than five is an error naming the length. Otherwise there is a record exactly when the table knows the code, of the table's class, with the integers copied positionally; an unknown code gives no record. The ultrak498 classifier (ultrak498-master/ultrak498.py:112-124) shares the length check and the copy and turns the missing record into an error, in `Ultrak498.Classify`. |
| Corrector.Correct | dt2000.py:163-192 | A header clears both offsets and passes through unchanged. A LapTime moves only the lap offset, by 100 exactly when its raw lap is 0, and its lap becomes raw lap plus the new offset; nothing else changes. An AbsTime does the same with the abs offset. Every other record passes through with the offsets untouched. |
| Corrector.CorrectKeepsWholeHundreds | dt2000.py:163-192 | Offsets that are whole hundreds stay whole hundreds, so a corrected LapTime or AbsTime lap keeps its raw value modulo 100. |
| Corrector.CorrectAll | ultrak498-master/ultrak498.py:170-174 | Correcting a stream in order gives one record per input record, each of the same class as its input. |
| Corrector.CorrectAllSnoc | ultrak498-master/ultrak498.py:170-174 | Correcting one more record continues from the offsets the stream left. |
| Corrector.CorrectAllCountsWraps | dt2000.py:163-192 | Over a whole stream from zero offsets, each corrected LapTime (AbsTime) lap is its raw lap plus 100 per raw 0 of the same class since the last header, counting itself. The final offsets hold those counts. |
| Corrector.CountedStep | dt2000.py:174-190 | One correction from offsets holding 100 per wrap counted so far lands on the counts of the longer stream and on that stream's expected last record. |
| Corrector.LapOverflowVector | ultrak498-master/utest/test_ultrak498.py:209-216 | Raw laps 99,0,1,2,99,0,21,0,0,0,55 correct to 99,100,101,102,199,200,221,300,400,500,555. |
| Corrector.AbsOverflowVector | ultrak498-master/utest/test_ultrak498.py:218-225 | The same sequence on AbsTime records moves only the abs offset. |
| Corrector.ResetOnRaceStartVector | ultrak498-master/utest/test_ultrak498.py:227-279 | Interleaved LapTime/AbsTime records wrap independently. After a header, raw lap 1 is 1 again for both. |
| Corrector.SmallLapsUnchanged | ultrak498-master/utest/test_ultrak498.py:191-207 | From zero offsets, raw laps 1..99 come back unchanged. |
| Corrector.HeaderRestartsLaps | ultrak498-master/ultrak498.py:137-139 | Whatever the offsets, after a header raw lap 1 corrects to 1. |
| Corrector.CorrectionNotIdempotent | dt2000.py:179-183 | Correcting an already corrected LapTime with the offsets left behind adds the offset a second time. |
| Framing.Frame | dt2000.py:201-207 | The stream splits into records exactly when its length is a multiple of five. The record count is the length over five, each record is five bytes, and concatenating them gives the stream back. Otherwise the error names the length of the short tail. |
| Framing.FrameFlatten | ultrak498-master/ultrak498.py:161-168 | Framing five-byte records laid back to back returns exactly those records. |
| Framing.FramingVectors | ultrak498-master/ultrak498.py:164-168 | An empty stream gives no records; one record gives itself; one record plus four bytes fails with a tail of four. |
| Dt2000.Table | dt2000.py:71-141 | The table holds exactly codes 90 and 990..999 (RaceHeader), 10..19 (LapTime), 20 (AbsTime), 30..39 (AvLapTime), 40..49 (FastestLapTime), 50..59 (RaceEnd) and eight 99xx auxiliary classes, with 9937 naming Type73. |
| Dt2000.Classify | dt2000.py:60-160 | A length other than five raises. Otherwise an unknown code gives no record rather than an error. A known code gives the record of the range's class with the integers copied. |
| Dt2000.ClassifyVectors | dt2000.py:145-158 | [90,0,0,0,0] is a header, [10,1,2,3,4] a LapTime, code 99 gives no record, and lengths 0 and 3 raise. |
| Dt2000.RawRecord | dt2000.py:226-235 | A full record yields a record exactly when its decoded code is known. The record is of the class its code's range selects, and its fields are the decoded bytes. Codes are at most 165, so no auxiliary 99xx class arises and every header carries code 90. |
| Dt2000.CorrectOption | dt2000.py:171-192 | A missing record passes through with the offsets untouched. A present record is corrected exactly as the corrector does and stays present. |
| Dt2000.CorrectOptions | dt2000.py:163-192 | Correcting a stream with missing records keeps its length, keeps every missing record missing and every present one present, and keeps each record's class. |
| Dt2000.ReadRecords | dt2000.py:195-237 | Succeeds exactly when the stream length is a multiple of five, with one entry per record. Otherwise it fails with the short tail's length. Every record present satisfies the wire bounds above. |
| Dt2000.ReadRecordsStaged | dt2000.py:195-237 | The interleaved generator equals the staged pipeline: frame everything, then decode and classify every record, then correct the results in order. |
| Dt2000.CorrectOptionsSkipsNone | dt2000.py:163-192 | Missing records leave the offsets alone: correcting with them and dropping them afterwards equals dropping them first. |
| Dt2000.Session | dt2000.py:262-374 | The whole stream is read before the loop starts, so a truncated stream fails before any line. A run keeps at most one entry per record, `None` where nothing is printed. A completed run keeps exactly one entry per record and ends with a carried clock. When the stream reads, the loop runs to the end exactly when every finisher count matches its corrected lap, and with in-range times it prints exactly the reference lines. Otherwise it prints the lines of the records before the first mismatching finisher and stops there with the error naming that finisher's count and lap. |
| Dt2000.MismatchStreamRecords | dt2000.py:195-237 | The three-record mismatch stream reads as header 90 and laps 1 and 100: the raw lap 0 of the second finisher is corrected by one wrap. |
| Dt2000.SessionHeaderOnly | dt2000.py:313-321 | A stream holding one header prints the new-race line and leaves the clock reset. |
| Dt2000.SessionTruncated | dt2000.py:201-207 | A header plus a four-byte tail fails as truncated with nothing printed. |
| Dt2000.SessionLapMismatch | dt2000.py:322-350 | A header and laps 1 and 0 print the header line and the first finisher, then fail because the second lap was corrected to 100. |
| RaceClock.AddLap | dt2000.py:322-347 | Adds one finisher: the position goes up by one, and the clock's hundredths, seconds and minutes stay within their limits whatever the record holds. |
| RaceClock.AddLapKeepsTotal | dt2000.py:324-347 | From a carried clock and with in-range units, the clock total grows by exactly the finisher's time, with hours taken from the type code. |
| RaceClock.AddLapWithoutCarry | dt2000.py:324-347 | When no unit reaches its limit, each of the finisher's units is added to the clock's, and the hours gain the last digit of the type code. |
| RaceClock.CarryNeedsValidTimes | dt2000.py:333-336 | With 165 hundredths, the lenient reading of byte 0xFF, one carry is not enough and the clock loses a second. |
| RaceClock.Step | dt2000.py:313-374 | A header resets the clock and announces a new race. A LapTime fails, naming the count and the lap, exactly when the new count differs from its corrected lap; otherwise it prints a finisher line with that count. Other records and missing ones leave the clock unchanged. |
| RaceClock.StepPrints | dt2000.py:313-374 | A loop pass that does not fail prints a line exactly when the loop has a branch for the record's class. |
| RaceClock.StepWithoutCarry | dt2000.py:322-354 | A finisher whose lap is the next count and whose units add without a carry prints a Finisher line with that count and the summed time. |
| RaceClock.SplitTotal | dt2000.py:333-347 | A carried clock is the hours/minutes/seconds/hundredths split of its own total. |
| RaceClock.RaceAgreesWithReference | dt2000.py:308-374 | The loop runs to the end exactly when every LapTime's lap equals its finisher count since the last header. It then holds that count, a carried clock and one entry per record. With in-range times the clock equals the finishers' summed time. |
| RaceClock.RacePrintsNotices | dt2000.py:313-374 | With matching counts and in-range times, every printed line is the reference line: NewRace; Finisher with count and split summed time; or the average, fastest and end announcements. |
| RaceClock.RaceStopsAtFirstMismatch | dt2000.py:348-350 | Otherwise the loop stops at the first mismatching LapTime, with the error naming its count and lap, and prints nothing for it or after it. |
| RaceClock.Race | dt2000.py:313-374 | The loop keeps at most one entry per record, and exactly one per record when it runs to the end. |
| RaceClock.RaceLines | dt2000.py:313-374 | An entry is a printed line exactly for headers, LapTime, RaceEnd, AvLapTime and FastestLapTime records. Missing records, AbsTime records and auxiliary classes print nothing. |
| RaceClock.RaceFirstFinisher | dt2000.py:313-354 | After a header, a finisher with lap 1 and in-range units prints the new-race line and then finisher 1, whose finishing time is its lap time with hours from the type code. |
| RaceClock.RaceStopsOnWrappedLap | dt2000.py:322-350 | After a header and a first finisher, a lap corrected to 100 stops the loop with count 2 and lap 100. |
| Ultrak498.Table | ultrak498-master/ultrak498.py:94-110 | The table holds exactly codes 0..9 (RaceHeader), 10 (LapTime), 20 (AbsTime), 30 and 40 (Type30, Type40) and 50 (RaceEnd). |
| Ultrak498.Classify | ultrak498-master/ultrak498.py:83-124 | Succeeds exactly for five integers with a known code. The length is checked first, then an unknown code raises naming it. A known code gives the record of its class with the integers copied. |
| Ultrak498.ClassifyVectors | ultrak498-master/utest/test_ultrak498.py:109-188 | The classifier tests: headers, LapTime, AbsTime and RaceEnd copied positionally; code 99, the empty list and length 3 raise. |
| Ultrak498.ClassifiedShape | ultrak498-master/ultrak498.py:217-219 | For classified records a code below ten means a header and code 20 means an AbsTime, so the filter's attribute reads are safe. |
| Ultrak498.RawRecord | ultrak498-master/ultrak498.py:170-171 | A full record decodes and classifies exactly when every byte is valid BCD and its code is known. Its fields are then the decoded bytes, all below 100. All five bytes are decoded before the type lookup, so an invalid byte anywhere reports its digit error even when the code is also unknown; only a fully valid record with an unknown code reports that code. |
| Ultrak498.ReadDigitBeforeTypeVector | ultrak498-master/ultrak498.py:170-171 | A record whose type byte 0x99 decodes to the unknown code 99 and whose next byte is 0x0A stops the read at the tens check of 0x0A. |
| Ultrak498.ReadRecords | ultrak498-master/ultrak498.py:155-174 | On success, the stream length is a multiple of five and there is one classified record per five bytes. Failures are truncation, bad digits or unknown codes only. |
| Ultrak498.ReadRecordsStep | ultrak498-master/ultrak498.py:164-174 | An invalid first record is the read's error. After a valid first record, an error in the rest is the read's error. |
| Ultrak498.ReadRecordsFirstInvalid | ultrak498-master/ultrak498.py:155-174 | When some full record does not decode and classify, the read fails with that record's error for the first such record in stream order. |
| Ultrak498.ReadRecordsShortTail | ultrak498-master/ultrak498.py:164-168 | When every full record is valid and the stream is not a multiple of five bytes, the read fails as truncated with the tail's length. |
| Ultrak498.ReadRecordsStaged | ultrak498-master/ultrak498.py:155-174 | Reading succeeds exactly when the stream frames and every record is valid. It then equals classifying every record and correcting the list in order. |
| Ultrak498.ReadHeaderVector | ultrak498-master/ultrak498.py:164-174 | One header record reads back as that header. |
| Ultrak498.ReadUnknownTypeVector | ultrak498-master/ultrak498.py:117-119 | A record whose code decodes to 99 stops the read with that code. |
| Ultrak498.ReadInvalidDigitVector | ultrak498-master/ultrak498.py:63-65 | A record holding byte 0x0A stops the read at the tens check. |
| Ultrak498.Session | ultrak498-master/ultrak498.py:215-221 | Any read error ends the run with nothing printed, and a stream that is not a multiple of five bytes always fails. Otherwise the records fit the filter and the printed rows are those of the reference filter. |
| RaceFilter.TotalHundredthsSplits | ultrak498-master/ultrak498.py:220 | With seconds below 60 and hundredths below 100, the printed total splits back into the printed minutes, seconds and hundredths. |
| RaceFilter.FilterRows | ultrak498-master/ultrak498.py:215-221 | The loop prints exactly the reference rows. |
| RaceFilter.SelectedSound | ultrak498-master/ultrak498.py:217-221 | Every printed row comes from a type-20 record whose last preceding header carries the requested race id. |
| RaceFilter.SelectedComplete | ultrak498-master/ultrak498.py:217-221 | Every type-20 record of the requested race is printed. |
| RaceFilter.FilterVector | ultrak498-master/ultrak498.py:215-221 | An AbsTime after the requested header prints its row with total 6203. One after another race's header is not printed. One before any header belongs to race 0. |

## Left out

- File and serial-port opening (`openFile`, and `readRecords`' own I/O): the byte stream is a parameter.
- `intr2.py`: bit-banged serial capture hardware, a signal handler and an endless print loop.
- Presentation: option parsing, the banner lines printed at start-up, and the exact text of every printed line. Printed lines are modelled by their content fields.
- The `elapsed_secs` float accumulation in the dt2000 loop: floating point, and never read.
- Dump mode (the raw-byte tee) and hex mode (reading two hex characters per byte) of the dt2000 reader: side channels and text parsing outside the binary wire format.
- `static_vars`: the decorator is only the storage for the corrector's counters, which are an explicit `Offsets` value here.
- The dt2000 tests of `integer_list_to_param_dict` and `adjust_lap_hundreds_p_dict` (utest/test_dt2000.py:102-160): those functions are not in dt2000.py, so no behaviour is taken from them.
- The multi-byte check of `bcd_to_int` (a `ValueError` when given more than one character): a byte is a `bv8`, so the case cannot be expressed.
- Negative race ids: `--raceid` is parsed as a Python `int`, but `Ultrak498.Session` and `RaceFilter.FilterRows` take a `nat`. A negative id matches no header and prints nothing, since header ids are decoded bytes.
- Negative integers given to a classifier: the integers are `nat`, as every decoded byte is.
- RaceFilter.FilterRows: requires every record to have the shape the loop's attribute reads rely on. Other input would raise AttributeError in ultrak498.py; that input cannot come from the ultrak498 reader (`Ultrak498.ClassifiedShape`).
- RaceClock.AddLapKeepsTotal: the total is exact only for in-range units. Over-range units are what the lenient decoder can produce, and `RaceClock.CarryNeedsValidTimes` shows one.
- Corrector idempotence: the code re-adds the offset on a second pass (`Corrector.CorrectionNotIdempotent`), so no idempotence is claimed.

=== FILE: bcd.dfy ===
/** The BCD codec of the timing console.

    Each wire byte packs two decimal digits, but with the nibble roles
    swapped relative to conventional BCD: the LOW nibble (`b & 0x0F`) is the
    tens digit and the HIGH nibble (`b >> 4`) is the ones digit, so byte 0x24
    means 42.  The dt2000 revision decodes leniently (its digit checks are
    commented out, so a nibble may be 10..15); the ultrak498 revision
    rejects any nibble above 9.
 */
module Bcd {
  import opened Outcomes

  /** One wire byte. */
  type byte = bv8

  /** `b & 0x0F`: the tens digit on this wire format. */
  function TensNibble(b: byte): (d: nat)
    ensures d < 16 && d == (b as int) % 16
  {
    (b & 0x0F) as nat
  }

  /** `(b >> 4) & 0x0F`: the ones digit on this wire format. */
  function OnesNibble(b: byte): (d: nat)
    ensures d < 16 && d == (b as int) / 16
  {
    (b >> 4) as nat
  }

  /** Both nibbles are decimal digits. */
  predicate IsBcd(b: byte) {
    TensNibble(b) <= 9 && OnesNibble(b) <= 9
  }

  /** dt2000 `bcd_to_int`: never fails on a byte, so nibbles 10..15 slip
      through and the result can reach 15 * 10 + 15. */
  function DecodeLenient(b: byte): (n: nat)
    ensures n <= 165
    ensures IsBcd(b) ==> n <= 99 && n / 10 == TensNibble(b) && n % 10 == OnesNibble(b)
    ensures TensNibble(b) > 9 ==> n >= 100
  {
    TensNibble(b) * 10 + OnesNibble(b)
  }

  /** ultrak498 `bcd_to_int`: the tens nibble is checked first, then the
      ones nibble; either one above 9 is an error. */
  function DecodeStrict(b: byte): (r: Result<nat>)
    ensures r.Ok? <==> IsBcd(b)
    ensures r.Ok? ==> r.value <= 99 && r.value == DecodeLenient(b)
    ensures TensNibble(b) > 9 ==> r == Err(InvalidDigit(Tens, b as int))
    ensures TensNibble(b) <= 9 < OnesNibble(b) ==> r == Err(InvalidDigit(Ones, b as int))
  {
    if TensNibble(b) > 9 then Err(InvalidDigit(Tens, b as int))
    else if OnesNibble(b) > 9 then Err(InvalidDigit(Ones, b as int))
    else Ok(TensNibble(b) * 10 + OnesNibble(b))
  }

  /** A decimal digit as a byte. */
  function DigitByte(k: nat): (d: byte)
    requires k < 10
    ensures d < 10 && d as int == k
  {
    if k == 0 then 0 else if k == 1 then 1 else if k == 2 then 2
    else if k == 3 then 3 else if k == 4 then 4 else if k == 5 then 5
    else if k == 6 then 6 else if k == 7 then 7 else if k == 8 then 8 else 9
  }

  /** The byte the console sends for a value 0..99 (the codec's inverse;
      the program itself never encodes): ones digit high, tens digit low. */
  function Encode(n: nat): (b: byte)
    requires n <= 99
    ensures IsBcd(b)
    ensures DecodeStrict(b) == Ok(n)
  {
    var ones := DigitByte(n % 10);
    var tens := DigitByte(n / 10);
    var b := (ones << 4) | tens;
    assert b & 0x0F == tens && b >> 4 == ones;
    b
  }

  /** Every valid BCD byte is the encoding of its own decoded value, so the
      strict decoder is injective. */
  lemma EncodeDecode(b: byte)
    requires IsBcd(b)
    ensures DecodeLenient(b) <= 99 && Encode(DecodeLenient(b)) == b
  {
    var n := DecodeLenient(b);
    assert n / 10 == TensNibble(b) && n % 10 == OnesNibble(b);
    assert DigitByte(n % 10) == b >> 4 && DigitByte(n / 10) == b & 0x0F;
    assert ((b >> 4) << 4) | (b & 0x0F) == b;
  }

  /** The lenient decoder is not injective: the invalid byte 0xA0 (tens 0,
      ones 10) reads as 10, exactly like the valid byte 0x01. */
  lemma LenientDecodeCollides()
    ensures DecodeLenient(0xA0) == DecodeLenient(0x01) == 10
    ensures !IsBcd(0xA0) && IsBcd(0x01)
  {
  }

  /** `bcd_string_to_integer_list` in the dt2000 revision. */
  function DecodeAllLenient(bs: seq<byte>): (ns: seq<nat>)
    ensures |ns| == |bs|
    ensures forall i :: 0 <= i < |bs| ==> ns[i] == DecodeLenient(bs[i])
  {
    if bs == [] then [] else [DecodeLenient(bs[0])] + DecodeAllLenient(bs[1..])
  }

  /** `bcd_string_to_integer_list` in the ultrak498 revision: the list
      comprehension stops at the first byte that fails to decode. */
  function DecodeAllStrict(bs: seq<byte>): (r: Result<seq<nat>>)
    ensures r.Ok? <==> forall i :: 0 <= i < |bs| ==> IsBcd(bs[i])
    ensures r.Ok? ==> r.value == DecodeAllLenient(bs)
    ensures r.Err? ==>
      exists i :: 0 <= i < |bs| && (forall j :: 0 <= j < i ==> IsBcd(bs[j]))
                  && DecodeStrict(bs[i]) == Err(r.error)
  {
    if bs == [] then Ok([])
    else
      var n :- DecodeStrict(bs[0]);
      var rest :- DecodeAllStrict(bs[1..]);
      Ok([n] + rest)
  }

  /** Decoding a whole sequence of valid bytes yields values 0..99 only. */
  lemma DecodedValidBytesBelow100(bs: seq<byte>)
    requires forall i :: 0 <= i < |bs| ==> IsBcd(bs[i])
    ensures forall i :: 0 <= i < |bs| ==> DecodeAllLenient(bs)[i] <= 99
  {
  }

  /** Single-byte input/output pairs of the program's own decoder unit tests. */
  lemma DecodeByteVectors()
    ensures DecodeLenient(0x00) == 0 && DecodeLenient(0x10) == 1
    ensures DecodeLenient(0x90) == 9 && DecodeLenient(0x01) == 10
    ensures DecodeLenient(0x11) == 11 && DecodeLenient(0x51) == 15
    ensures DecodeLenient(0x02) == 20 && DecodeLenient(0x24) == 42
    ensures DecodeLenient(0x05) == 50 && DecodeLenient(0x57) == 75
    ensures DecodeLenient(0x89) == 98 && DecodeLenient(0x99) == 99
  {
  }

  /** The strict decoder's two rejection tests. */
  lemma DecodeStrictRejects()
    ensures DecodeStrict(0xA0) == Err(InvalidDigit(Ones, 0xA0))
    ensures DecodeStrict(0x0A) == Err(InvalidDigit(Tens, 0x0A))
  {
  }

  /** Multi-byte input/output pairs of the program's own decoder unit tests. */
  lemma DecodeStringVectors()
    ensures DecodeAllStrict([]) == Ok([])
    ensures DecodeAllStrict([0x32]) == Ok([23])
    ensures DecodeAllStrict([0x52, 0x21]) == Ok([25, 12])
    ensures DecodeAllStrict([0x11, 0x21, 0x31, 0x41, 0x51]) == Ok([11, 12, 13, 14, 15])
  {
    var one: seq<byte> := [0x32];
    assert DecodeAllStrict(one).value == [23];
    var two: seq<byte> := [0x52, 0x21];
    assert DecodeAllStrict(two).value == [25, 12];
    var five: seq<byte> := [0x11, 0x21, 0x31, 0x41, 0x51];
    assert DecodeAllStrict(five).value == [11, 12, 13, 14, 15];
  }
}

=== FILE: corrector.dfy ===
/** The lap/abs overflow corrector (`adjust_lap_hundreds`, identical in both
    revisions).

    The console's lap and position counters are single BCD bytes, so they
    wrap from 99 back to 0.  The program keeps two hundreds offsets, one for
    LapTime records and one for AbsTime records; a raw lap of exactly 0 is
    taken as a wrap and bumps the matching offset by 100 before it is added.
    A RaceHeader clears both offsets.  The Python program keeps the offsets as
    attributes of the function object; here they are an explicit value
    threaded through the stream.
 */
module Corrector {
  import opened Records

  datatype Offsets = Offsets(lapHundreds: nat, absHundreds: nat)

  /** The offsets at the start of a session and after every RaceHeader. */
  const Initial := Offsets(0, 0)

  /** Offsets that only ever count whole hundreds. */
  predicate WholeHundreds(s: Offsets) {
    s.lapHundreds % 100 == 0 && s.absHundreds % 100 == 0
  }

  /** One call of the corrector: the new offsets and the corrected record. */
  function Correct(s: Offsets, r: Record): (res: (Offsets, Record))
    // a header clears both offsets and passes through untouched
    ensures r.RaceHeader? ==> res == (Initial, r)
    // a LapTime moves only the lap offset, by 100 exactly when its raw lap is 0,
    // and only its lap field changes, by the new offset
    ensures r.LapTime? ==>
      && res.0.absHundreds == s.absHundreds
      && res.0.lapHundreds - s.lapHundreds == (if r.lap == 0 then 100 else 0)
      && res.1.LapTime? && WithLap(res.1, r.lap) == r
      && res.1.lap - r.lap == res.0.lapHundreds
    // an AbsTime does the same with the abs offset
    ensures r.AbsTime? ==>
      && res.0.lapHundreds == s.lapHundreds
      && res.0.absHundreds - s.absHundreds == (if r.lap == 0 then 100 else 0)
      && res.1.AbsTime? && WithLap(res.1, r.lap) == r
      && res.1.lap - r.lap == res.0.absHundreds
    // every other class passes through with the offsets untouched
    ensures !(r.RaceHeader? || r.LapTime? || r.AbsTime?) ==> res == (s, r)
  {
    match r
    case RaceHeader(_, _, _, _, _) => (Initial, r)
    case LapTime(_, _, _, _, lap) =>
      var s' := if lap == 0 then s.(lapHundreds := s.lapHundreds + 100) else s;
      (s', WithLap(r, lap + s'.lapHundreds))
    case AbsTime(_, _, _, _, lap) =>
      var s' := if lap == 0 then s.(absHundreds := s.absHundreds + 100) else s;
      (s', WithLap(r, lap + s'.absHundreds))
    case _ => (s, r)
  }

  /** The correction only ever adds whole hundreds: offsets that count
      whole hundreds keep doing so, and a corrected lap keeps its raw value
      modulo 100. */
  lemma CorrectKeepsWholeHundreds(s: Offsets, r: Record)
    requires WholeHundreds(s)
    ensures WholeHundreds(Correct(s, r).0)
    ensures r.LapTime? || r.AbsTime? ==> Correct(s, r).1.lap % 100 == r.lap % 100
  {
    AddWholeHundreds(s.lapHundreds, 100);
    AddWholeHundreds(s.absHundreds, 100);
    var s' := Correct(s, r).0;
    if r.LapTime? {
      AddWholeHundreds(r.lap, s'.lapHundreds);
    } else if r.AbsTime? {
      AddWholeHundreds(r.lap, s'.absHundreds);
    }
  }

  /** Adding a whole number of hundreds leaves the value modulo 100 alone. */
  lemma AddWholeHundreds(a: nat, b: nat)
    requires b % 100 == 0
    ensures (a + b) % 100 == a % 100
  {
    var k := b / 100;
    assert b == 100 * k;
    assert a + b == 100 * (a / 100 + k) + a % 100;
  }

  /** The corrector applied to a stream of records in order, as the
      record generator does, threading the offsets from left to right. */
  function CorrectAll(s: Offsets, rs: seq<Record>): (res: (Offsets, seq<Record>))
    ensures |res.1| == |rs|
    ensures forall i :: 0 <= i < |rs| ==> KindOf(res.1[i]) == KindOf(rs[i])
    decreases |rs|
  {
    if rs == [] then (s, [])
    else
      var (s1, r1) := Correct(s, rs[0]);
      var (s2, tail) := CorrectAll(s1, rs[1..]);
      (s2, [r1] + tail)
  }

  /** Feeding one more record continues from where the stream stopped. */
  lemma {:induction false} CorrectAllSnoc(s: Offsets, rs: seq<Record>, x: Record)
    ensures CorrectAll(s, rs + [x]).0 == Correct(CorrectAll(s, rs).0, x).0
    ensures CorrectAll(s, rs + [x]).1 == CorrectAll(s, rs).1 + [Correct(CorrectAll(s, rs).0, x).1]
    decreases |rs|
  {
    if rs == [] {
      assert rs + [x] == [x];
    } else {
      var (s1, r1) := Correct(s, rs[0]);
      assert (rs + [x])[1..] == rs[1..] + [x];
      CorrectAllSnoc(s1, rs[1..], x);
    }
  }

  /** Reference count: LapTime records with raw lap 0 since the last header. */
  function LapWraps(rs: seq<Record>): nat {
    if rs == [] then 0
    else
      var x := rs[|rs| - 1];
      if x.RaceHeader? then 0
      else LapWraps(rs[..|rs| - 1]) + (if x.LapTime? && x.lap == 0 then 1 else 0)
  }

  /** Reference count: AbsTime records with raw lap 0 since the last header. */
  function AbsWraps(rs: seq<Record>): nat {
    if rs == [] then 0
    else
      var x := rs[|rs| - 1];
      if x.RaceHeader? then 0
      else AbsWraps(rs[..|rs| - 1]) + (if x.AbsTime? && x.lap == 0 then 1 else 0)
  }

  /** What the last record of a stream prefix should look like once
      corrected: its lap raised by one hundred per wrap seen so far. */
  function Expected(p: seq<Record>): Record
    requires |p| > 0
  {
    var x := p[|p| - 1];
    if x.LapTime? then WithLap(x, x.lap + 100 * LapWraps(p))
    else if x.AbsTime? then WithLap(x, x.lap + 100 * AbsWraps(p))
    else x
  }

  /** One step of the corrector from the counted offsets of a prefix lands
      on the counted offsets of the longer prefix and on its expected record. */
  lemma CountedStep(init: seq<Record>, x: Record)
    ensures Correct(Offsets(100 * LapWraps(init), 100 * AbsWraps(init)), x)
         == (Offsets(100 * LapWraps(init + [x]), 100 * AbsWraps(init + [x])), Expected(init + [x]))
  {
    var rs := init + [x];
    assert rs[..|rs| - 1] == init && rs[|rs| - 1] == x;
    if x.LapTime? {
      CountedLapStep(init, x);
    } else if x.AbsTime? {
      CountedAbsStep(init, x);
    }
  }

  /** `CountedStep` for a LapTime record. */
  lemma CountedLapStep(init: seq<Record>, x: Record)
    requires x.LapTime?
    ensures Correct(Offsets(100 * LapWraps(init), 100 * AbsWraps(init)), x)
         == (Offsets(100 * LapWraps(init + [x]), 100 * AbsWraps(init + [x])), Expected(init + [x]))
  {
    var rs := init + [x];
    assert rs[..|rs| - 1] == init && rs[|rs| - 1] == x;
    var l, l' := LapWraps(init), LapWraps(rs);
    assert AbsWraps(rs) == AbsWraps(init);
    assert l' == l + (if x.lap == 0 then 1 else 0);
    assert 100 * l' == 100 * l + (if x.lap == 0 then 100 else 0);
    assert Expected(rs) == WithLap(x, x.lap + 100 * l');
  }

  /** `CountedStep` for an AbsTime record. */
  lemma CountedAbsStep(init: seq<Record>, x: Record)
    requires x.AbsTime?
    ensures Correct(Offsets(100 * LapWraps(init), 100 * AbsWraps(init)), x)
         == (Offsets(100 * LapWraps(init + [x]), 100 * AbsWraps(init + [x])), Expected(init + [x]))
  {
    var rs := init + [x];
    assert rs[..|rs| - 1] == init && rs[|rs| - 1] == x;
    var a, a' := AbsWraps(init), AbsWraps(rs);
    assert LapWraps(rs) == LapWraps(init);
    assert a' == a + (if x.lap == 0 then 1 else 0);
    assert 100 * a' == 100 * a + (if x.lap == 0 then 100 else 0);
    assert Expected(rs) == WithLap(x, x.lap + 100 * a');
  }

  /** The corrector, run over a whole stream from the initial offsets,
      adds to every lap exactly one hundred per raw 0 of the same class since
      the last header, and ends holding those counts as its offsets. */
  lemma {:induction false} CorrectAllCountsWraps(rs: seq<Record>)
    ensures CorrectAll(Initial, rs).0 == Offsets(100 * LapWraps(rs), 100 * AbsWraps(rs))
    ensures forall i :: 0 <= i < |rs| ==> CorrectAll(Initial, rs).1[i] == Expected(rs[..i + 1])
    decreases |rs|
  {
    if rs != [] {
      var init := rs[..|rs| - 1];
      var x := rs[|rs| - 1];
      assert rs == init + [x];
      CorrectAllCountsWraps(init);
      CorrectAllSnoc(Initial, init, x);
      CountedStep(init, x);
      var out := CorrectAll(Initial, rs).1;
      assert out == CorrectAll(Initial, init).1 + [Expected(rs)];
      forall i | 0 <= i < |rs|
        ensures out[i] == Expected(rs[..i + 1])
      {
        if i < |init| {
          assert rs[..i + 1] == init[..i + 1];
        } else {
          assert rs[..i + 1] == rs;
        }
      }
    }
  }

  /** A LapTime record with the given raw lap, as in the program's unit tests. */
  function Lap(lap: nat): Record {
    LapTime(10, 0, 0, 0, lap)
  }

  /** An AbsTime record with the given raw lap. */
  function Abs(lap: nat): Record {
    AbsTime(20, 0, 0, 0, lap)
  }

  /** The program's overflow unit test, one call at a time as the test makes them:
      raw laps 99, 0, 1, 2, 99, 0, 21, 0, 0, 0, 55 come out as
      99, 100, 101, 102, 199, 200, 221, 300, 400, 500, 555. */
  lemma LapOverflowVector()
    ensures Correct(Offsets(0, 0), Lap(99)) == (Offsets(0, 0), Lap(99))
    ensures Correct(Offsets(0, 0), Lap(0)) == (Offsets(100, 0), Lap(100))
    ensures Correct(Offsets(100, 0), Lap(1)) == (Offsets(100, 0), Lap(101))
    ensures Correct(Offsets(100, 0), Lap(2)) == (Offsets(100, 0), Lap(102))
    ensures Correct(Offsets(100, 0), Lap(99)) == (Offsets(100, 0), Lap(199))
    ensures Correct(Offsets(100, 0), Lap(0)) == (Offsets(200, 0), Lap(200))
    ensures Correct(Offsets(200, 0), Lap(21)) == (Offsets(200, 0), Lap(221))
    ensures Correct(Offsets(200, 0), Lap(0)) == (Offsets(300, 0), Lap(300))
    ensures Correct(Offsets(300, 0), Lap(0)) == (Offsets(400, 0), Lap(400))
    ensures Correct(Offsets(400, 0), Lap(0)) == (Offsets(500, 0), Lap(500))
    ensures Correct(Offsets(500, 0), Lap(55)) == (Offsets(500, 0), Lap(555))
  {
  }

  /** The same sequence on AbsTime records moves only the abs offset: a lap
      offset left at 100 by an earlier wrap stays at 100. */
  lemma AbsOverflowVector()
    ensures Correct(Offsets(100, 0), Abs(99)) == (Offsets(100, 0), Abs(99))
    ensures Correct(Offsets(100, 0), Abs(0)) == (Offsets(100, 100), Abs(100))
    ensures Correct(Offsets(100, 100), Abs(1)) == (Offsets(100, 100), Abs(101))
    ensures Correct(Offsets(100, 100), Abs(2)) == (Offsets(100, 100), Abs(102))
    ensures Correct(Offsets(100, 100), Abs(99)) == (Offsets(100, 100), Abs(199))
    ensures Correct(Offsets(100, 100), Abs(0)) == (Offsets(100, 200), Abs(200))
    ensures Correct(Offsets(100, 200), Abs(21)) == (Offsets(100, 200), Abs(221))
    ensures Correct(Offsets(100, 200), Abs(0)) == (Offsets(100, 300), Abs(300))
    ensures Correct(Offsets(100, 300), Abs(0)) == (Offsets(100, 400), Abs(400))
    ensures Correct(Offsets(100, 400), Abs(0)) == (Offsets(100, 500), Abs(500))
    ensures Correct(Offsets(100, 500), Abs(55)) == (Offsets(100, 500), Abs(555))
  {
  }

  /** The program's reset unit test, one call at a time: LapTime and AbsTime
      records interleaved, each class wrapping twice, then a header, after
      which raw lap 1 is 1 again for both classes. */
  lemma ResetOnRaceStartVector()
    ensures Correct(Offsets(0, 0), Lap(1)) == (Offsets(0, 0), Lap(1))
    ensures Correct(Offsets(0, 0), Abs(1)) == (Offsets(0, 0), Abs(1))
    ensures Correct(Offsets(0, 0), Lap(99)) == (Offsets(0, 0), Lap(99))
    ensures Correct(Offsets(0, 0), Abs(99)) == (Offsets(0, 0), Abs(99))
    ensures Correct(Offsets(0, 0), Lap(0)) == (Offsets(100, 0), Lap(100))
    ensures Correct(Offsets(100, 0), Abs(0)) == (Offsets(100, 100), Abs(100))
    ensures Correct(Offsets(100, 100), Lap(99)) == (Offsets(100, 100), Lap(199))
    ensures Correct(Offsets(100, 100), Abs(99)) == (Offsets(100, 100), Abs(199))
    ensures Correct(Offsets(100, 100), Lap(0)) == (Offsets(200, 100), Lap(200))
    ensures Correct(Offsets(200, 100), Abs(0)) == (Offsets(200, 200), Abs(200))
    ensures Correct(Offsets(200, 200), RaceHeader(0, 0, 0, 0, 0)) == (Initial, RaceHeader(0, 0, 0, 0, 0))
    ensures Correct(Initial, Lap(1)) == (Initial, Lap(1))
    ensures Correct(Initial, Abs(1)) == (Initial, Abs(1))
  {
  }

  /** From the initial offsets a LapTime or AbsTime with raw lap 1..99 is
      returned unchanged. */
  lemma SmallLapsUnchanged(r: Record)
    requires r.LapTime? || r.AbsTime?
    requires 1 <= r.lap <= 99
    ensures Correct(Initial, r) == (Initial, r)
  {
  }

  /** After a header the next raw lap 1 comes out as 1 again, whatever the
      offsets were before. */
  lemma HeaderRestartsLaps(s: Offsets, h: Record, r: Record)
    requires h.RaceHeader? && (r.LapTime? || r.AbsTime?) && r.lap == 1
    ensures Correct(Correct(s, h).0, r).1 == r
  {
  }

  /** The corrector is not idempotent: running a corrected LapTime through it
      again, with the offsets it left behind, adds the offset a second time. */
  lemma CorrectionNotIdempotent(s: Offsets, r: Record)
    requires r.LapTime? && r.lap != 0 && s.lapHundreds > 0
    ensures var (s1, r1) := Correct(s, r);
            Correct(s1, r1).1.lap == r.lap + 2 * s.lapHundreds != r1.lap
  {
  }
}

=== FILE: dt2000.dfy ===
/** The dt2000 revision of the record pipeline: lenient BCD decoding, the
    type-code table with its `None` for unknown codes, and the record
    generator that frames, decodes, classifies and corrects.
 */
module Dt2000 {
  import opened Outcomes
  import opened Bcd
  import opened Records
  import opened Corrector
  import opened Framing
  import opened RaceClock

  /** `valid_types` of this revision, entry by entry.  Its entries are
      exactly the ranges: headers at 90 and 990..999, LapTime 10..19,
      AbsTime 20, AvLapTime 30..39, FastestLapTime 40..49, RaceEnd 50..59,
      and the eight auxiliary 99xx classes (Type73 sits at 9937). */
  function Table(code: nat): (k: Option<Kind>)
    ensures k.Some? <==> KnownCode(code)
    ensures k.Some? ==> k.value == ClassOf(code)
  {
    match code
    case 990 => Some(HeaderKind)
    case 991 => Some(HeaderKind)
    case 992 => Some(HeaderKind)
    case 993 => Some(HeaderKind)
    case 994 => Some(HeaderKind)
    case 995 => Some(HeaderKind)
    case 996 => Some(HeaderKind)
    case 997 => Some(HeaderKind)
    case 998 => Some(HeaderKind)
    case 999 => Some(HeaderKind)
    case 10 => Some(LapKind)
    case 11 => Some(LapKind)
    case 12 => Some(LapKind)
    case 13 => Some(LapKind)
    case 14 => Some(LapKind)
    case 15 => Some(LapKind)
    case 16 => Some(LapKind)
    case 17 => Some(LapKind)
    case 18 => Some(LapKind)
    case 19 => Some(LapKind)
    case 20 => Some(AbsKind)
    case 30 => Some(AvLapKind)
    case 31 => Some(AvLapKind)
    case 32 => Some(AvLapKind)
    case 33 => Some(AvLapKind)
    case 34 => Some(AvLapKind)
    case 35 => Some(AvLapKind)
    case 36 => Some(AvLapKind)
    case 37 => Some(AvLapKind)
    case 38 => Some(AvLapKind)
    case 39 => Some(AvLapKind)
    case 40 => Some(FastestKind)
    case 41 => Some(FastestKind)
    case 42 => Some(FastestKind)
    case 43 => Some(FastestKind)
    case 44 => Some(FastestKind)
    case 45 => Some(FastestKind)
    case 46 => Some(FastestKind)
    case 47 => Some(FastestKind)
    case 48 => Some(FastestKind)
    case 49 => Some(FastestKind)
    case 50 => Some(EndKind)
    case 51 => Some(EndKind)
    case 52 => Some(EndKind)
    case 53 => Some(EndKind)
    case 54 => Some(EndKind)
    case 55 => Some(EndKind)
    case 56 => Some(EndKind)
    case 57 => Some(EndKind)
    case 58 => Some(EndKind)
    case 59 => Some(EndKind)
    case 9961 => Some(AuxKind(61))
    case 9966 => Some(AuxKind(66))
    case 9967 => Some(AuxKind(67))
    case 9968 => Some(AuxKind(68))
    case 9937 => Some(AuxKind(73))
    case 9974 => Some(AuxKind(74))
    case 9986 => Some(AuxKind(86))
    case 9988 => Some(AuxKind(88))
    case 90 => Some(HeaderKind)
    case _ => None
  }

  /** The codes the table holds, as ranges. */
  predicate KnownCode(code: nat) {
    || code == 90 || 990 <= code <= 999
    || 10 <= code <= 20 || 30 <= code <= 59
    || code in {9961, 9966, 9967, 9968, 9937, 9974, 9986, 9988}
  }

  /** The class each range selects. */
  function ClassOf(code: nat): Kind
    requires KnownCode(code)
  {
    if code == 90 || 990 <= code <= 999 then HeaderKind
    else if code <= 19 then LapKind
    else if code == 20 then AbsKind
    else if code <= 39 then AvLapKind
    else if code <= 49 then FastestKind
    else if code <= 59 then EndKind
    else if code == 9937 then AuxKind(73)
    else AuxKind(code - 9900)
  }

  /** `integer_list_to_named_tuple` of this revision: a wrong length raises,
      an unknown code gives `None` rather than an error. */
  function Classify(ints: seq<nat>): (r: Result<Option<Record>>)
    ensures r.Err? <==> |ints| != 5
    ensures r.Err? ==> r.error == InvalidLength(|ints|)
    ensures r.Ok? ==> (r.value.Some? <==> KnownCode(ints[0]))
    ensures r.Ok? && r.value.Some? ==>
      KindOf(r.value.value) == ClassOf(ints[0]) && Fields(r.value.value) == ints
  {
    ClassifyWith(Table, ints)
  }

  /** The classifier on a header, a LapTime, the unknown code 99, and the
      wrong lengths 0 and 3. */
  lemma ClassifyVectors()
    ensures Classify([90, 0, 0, 0, 0]) == Ok(Some(RaceHeader(90, 0, 0, 0, 0)))
    ensures Classify([10, 1, 2, 3, 4]) == Ok(Some(LapTime(10, 1, 2, 3, 4)))
    ensures Classify([99, 0, 0, 0, 0]) == Ok(None)
    ensures Classify([]) == Err(InvalidLength(0))
    ensures Classify([0, 0, 0]) == Err(InvalidLength(3))
  {
    MakeFieldsRoundTrip(RaceHeader(90, 0, 0, 0, 0));
    MakeFieldsRoundTrip(LapTime(10, 1, 2, 3, 4));
  }

  /** A record as it can come off the wire in this revision: decoded codes
      stop at 165, so the 990..999 header entries and the 99xx entries can
      never be selected and every header carries code 90. */
  predicate FromWire(r: Record) {
    r.code <= 165 && !r.Auxiliary? && (r.RaceHeader? ==> r.code == 90)
  }

  /** Decode and classify one full five-byte record; in this revision that
      cannot fail. */
  function RawRecord(chunk: seq<byte>): (o: Option<Record>)
    requires |chunk| == RecordWidth
    ensures o.Some? <==> KnownCode(DecodeLenient(chunk[0]))
    ensures o.Some? ==> KindOf(o.value) == ClassOf(DecodeLenient(chunk[0]))
    ensures o.Some? ==> Fields(o.value) == DecodeAllLenient(chunk) && FromWire(o.value)
  {
    Classify(DecodeAllLenient(chunk)).value
  }

  /** The corrector lifted to `None`, which it passes through without
      touching the offsets. */
  function CorrectOption(s: Offsets, o: Option<Record>): (res: (Offsets, Option<Record>))
    ensures o.None? ==> res == (s, None)
    ensures o.Some? ==> res.1.Some? && (res.0, res.1.value) == Correct(s, o.value)
  {
    match o
    case None => (s, None)
    case Some(r) =>
      var (s', r') := Correct(s, r);
      (s', Some(r'))
  }

  /** The record generator `readRecord` (non-hex path) collected into a
      list, as `readRecords` does: read five bytes, stop cleanly on an empty
      read, fail on a short one, otherwise decode, classify and correct. */
  function ReadRecords(s: Offsets, bs: seq<byte>): (r: Result<seq<Option<Record>>>)
    ensures r.Ok? <==> |bs| % RecordWidth == 0
    ensures r.Err? ==> r.error == TruncatedRecord(|bs| % RecordWidth)
    ensures r.Ok? ==> |r.value| == |bs| / RecordWidth
    ensures r.Ok? ==> forall i :: 0 <= i < |r.value| && r.value[i].Some? ==> FromWire(r.value[i].value)
    decreases |bs|
  {
    if |bs| == 0 then Ok([])
    else if |bs| < RecordWidth then Err(TruncatedRecord(|bs|))
    else
      assert |bs| % RecordWidth == |bs[RecordWidth..]| % RecordWidth;
      assert |bs| / RecordWidth == |bs[RecordWidth..]| / RecordWidth + 1;
      var (s1, o) := CorrectOption(s, RawRecord(bs[..RecordWidth]));
      assert o.Some? ==> FromWire(o.value);
      var rest :- ReadRecords(s1, bs[RecordWidth..]);
      Ok([o] + rest)
  }

  /** Every full record of a framed stream, decoded and classified. */
  function RawRecords(cs: seq<seq<byte>>): (os: seq<Option<Record>>)
    requires forall i :: 0 <= i < |cs| ==> |cs[i]| == RecordWidth
    ensures |os| == |cs|
  {
    if cs == [] then [] else [RawRecord(cs[0])] + RawRecords(cs[1..])
  }

  /** The corrector run over a stream in which some records are `None`. */
  function CorrectOptions(s: Offsets, os: seq<Option<Record>>): (res: (Offsets, seq<Option<Record>>))
    ensures |res.1| == |os|
    ensures forall i :: 0 <= i < |os| ==> (res.1[i].Some? <==> os[i].Some?)
    ensures forall i :: 0 <= i < |os| && os[i].Some? ==> KindOf(res.1[i].value) == KindOf(os[i].value)
    decreases |os|
  {
    if os == [] then (s, [])
    else
      var (s1, o1) := CorrectOption(s, os[0]);
      var (s2, tail) := CorrectOptions(s1, os[1..]);
      (s2, [o1] + tail)
  }

  /** The records that are present. */
  function Present(os: seq<Option<Record>>): (rs: seq<Record>)
    ensures |rs| <= |os|
  {
    if os == [] then []
    else (if os[0].Some? then [os[0].value] else []) + Present(os[1..])
  }

  /** The interleaved generator computes exactly the staged pipeline: frame
      the whole stream first, then decode and classify every record, then
      run the corrector over the results. */
  lemma {:induction false} ReadRecordsStaged(s: Offsets, bs: seq<byte>)
    ensures Frame(bs).Err? ==> ReadRecords(s, bs) == Err(Frame(bs).error)
    ensures Frame(bs).Ok? ==> ReadRecords(s, bs) == Ok(CorrectOptions(s, RawRecords(Frame(bs).value)).1)
    decreases |bs|
  {
    if |bs| >= RecordWidth {
      var chunk := bs[..RecordWidth];
      var (s1, o) := CorrectOption(s, RawRecord(chunk));
      ReadRecordsStaged(s1, bs[RecordWidth..]);
      if Frame(bs).Ok? {
        var cs := Frame(bs).value;
        assert cs == [chunk] + Frame(bs[RecordWidth..]).value;
        assert cs[1..] == Frame(bs[RecordWidth..]).value;
        assert RawRecords(cs)[0] == RawRecord(chunk);
        assert RawRecords(cs)[1..] == RawRecords(cs[1..]);
      }
    }
  }

  /** `None` records leave the corrector's offsets alone: correcting the
      stream with its `None`s and dropping them afterwards is the same as
      dropping them first and correcting what remains. */
  lemma {:induction false} CorrectOptionsSkipsNone(s: Offsets, os: seq<Option<Record>>)
    ensures CorrectOptions(s, os).0 == CorrectAll(s, Present(os)).0
    ensures Present(CorrectOptions(s, os).1) == CorrectAll(s, Present(os)).1
    decreases |os|
  {
    if os != [] {
      var (s1, o1) := CorrectOption(s, os[0]);
      CorrectOptionsSkipsNone(s1, os[1..]);
      var out := CorrectOptions(s, os).1;
      assert out[0] == o1 && out[1..] == CorrectOptions(s1, os[1..]).1;
      var present := Present(os);
      if os[0].Some? {
        assert present == [os[0].value] + Present(os[1..]);
        assert present[0] == os[0].value && present[1..] == Present(os[1..]);
        assert Present(out) == [o1.value] + Present(out[1..]);
      } else {
        assert present == Present(os[1..]);
        assert Present(out) == Present(out[1..]);
      }
    }
  }

  /** The dt2000 program run on a captured byte stream: the whole stream is
      read and corrected first (`readRecords` builds a list), and only then
      does the race loop run, so a truncated stream fails before anything is
      printed.  The loop then runs to the end exactly when every finisher
      count matches its corrected lap, and with in-range times it prints the
      reference lines; otherwise it prints the lines before the first
      mismatching finisher and stops there, naming its count and lap. */
  function Session(bs: seq<byte>): (rep: Report)
    ensures |bs| % RecordWidth != 0 ==> rep == Report([], Err(TruncatedRecord(|bs| % RecordWidth)))
    ensures |rep.lines| <= |bs| / RecordWidth
    ensures rep.outcome.Ok? ==> |rep.lines| == |bs| / RecordWidth && Carried(rep.outcome.value)
    ensures ReadRecords(Initial, bs).Ok? ==>
      (rep.outcome.Ok? <==> Consistent(ReadRecords(Initial, bs).value))
    ensures ReadRecords(Initial, bs).Ok? && Consistent(ReadRecords(Initial, bs).value)
            && AllTimesValid(ReadRecords(Initial, bs).value) ==>
      rep.lines == Notices(ReadRecords(Initial, bs).value)
    ensures ReadRecords(Initial, bs).Ok? && !Consistent(ReadRecords(Initial, bs).value) ==>
      var rs := ReadRecords(Initial, bs).value;
      exists k: nat ::
        (FirstMismatch(rs, k)
         && rs[k].Some? && rs[k].value.LapTime?
         && rep.outcome == Err(SequenceError(Finishers(rs[..k + 1]), rs[k].value.lap))
         && rep.lines == Race(rs[..k]).lines)
  {
    match ReadRecords(Initial, bs)
    case Err(e) => Report([], Err(e))
    case Ok(rs) =>
      RaceAgreesWithReference(rs);
      if !Consistent(rs) then
        RaceStopsAtFirstMismatch(rs);
        Race(rs)
      else if AllTimesValid(rs) then
        RacePrintsNotices(rs);
        Race(rs)
      else
        Race(rs)
  }

  /** A stream holding only a race header announces a new race and leaves
      the clock reset. */
  lemma SessionHeaderOnly(bs: seq<byte>)
    requires bs == [0x09, 0x00, 0x00, 0x00, 0x00]
    ensures Session(bs) == Report([Some(NewRace)], Ok(Reset))
  {
    var h := Some(RaceHeader(90, 0, 0, 0, 0));
    assert ReadRecords(Initial, bs) == Ok([h]) by {
      HeaderChunk(bs);
      assert bs + [] == bs;
      ReadRecordsCons(Initial, bs, [], Initial, h, []);
      assert [h] + [] == [h];
    }
    RaceHeaderOnly();
  }

  /** A header followed by a four-byte tail fails as truncated before the
      loop prints anything. */
  lemma SessionTruncated()
    ensures Session([0x09, 0x00, 0x00, 0x00, 0x00, 0x01, 0x00, 0x00, 0x00])
         == Report([], Err(TruncatedRecord(4)))
  {
  }

  /** A header and two finishers with raw laps 1 and 0: the second lap is
      corrected to 100, which is not the second finisher, so the loop stops
      after printing the header and the first finisher. */
  lemma SessionLapMismatch(bs: seq<byte>)
    requires bs == [0x09, 0x00, 0x00, 0x00, 0x00,
                    0x11, 0x20, 0x30, 0x40, 0x10,
                    0x21, 0x50, 0x60, 0x70, 0x00]
    ensures Session(bs) == Report([Some(NewRace), Some(Finisher(1, 1, 2, 3, 4))], Err(SequenceError(2, 100)))
  {
    var header: seq<byte> := [0x09, 0x00, 0x00, 0x00, 0x00];
    var first: seq<byte> := [0x11, 0x20, 0x30, 0x40, 0x10];
    var second: seq<byte> := [0x21, 0x50, 0x60, 0x70, 0x00];
    assert bs == header + (first + second);
    MismatchStreamRecords(header, first, second);
    RaceStopsOnWrappedLap([Some(RaceHeader(90, 0, 0, 0, 0)), Some(LapTime(11, 2, 3, 4, 1)), Some(LapTime(12, 5, 6, 7, 100))]);
  }

  /** Reading a stream that starts with a full record reads that record,
      then the rest from the offsets it left. */
  lemma ReadRecordsCons(s: Offsets, chunk: seq<byte>, rest: seq<byte>, s1: Offsets, o: Option<Record>, tail: seq<Option<Record>>)
    requires |chunk| == RecordWidth
    requires CorrectOption(s, RawRecord(chunk)) == (s1, o)
    requires ReadRecords(s1, rest) == Ok(tail)
    ensures ReadRecords(s, chunk + rest) == Ok([o] + tail)
  {
    assert (chunk + rest)[..RecordWidth] == chunk;
    assert (chunk + rest)[RecordWidth..] == rest;
  }

  /** A chunk whose five bytes decode to `ints`, with a known type code,
      reads as the record of that code's class holding `ints`. */
  lemma RawRecordOf(chunk: seq<byte>, ints: seq<nat>)
    requires |chunk| == RecordWidth && |ints| == RecordWidth
    requires forall i :: 0 <= i < RecordWidth ==> DecodeLenient(chunk[i]) == ints[i]
    requires KnownCode(ints[0])
    ensures RawRecord(chunk) == Some(Make(ClassOf(ints[0]), ints))
  {
    assert DecodeAllLenient(chunk) == ints;
    MakeFieldsRoundTrip(RawRecord(chunk).value);
  }

  /** The header chunk of the mismatch stream: type code 90, every other
      field zero. */
  lemma HeaderChunk(header: seq<byte>)
    requires header == [0x09, 0x00, 0x00, 0x00, 0x00]
    ensures RawRecord(header) == Some(RaceHeader(90, 0, 0, 0, 0))
    ensures CorrectOption(Initial, RawRecord(header)) == (Initial, Some(RaceHeader(90, 0, 0, 0, 0)))
  {
    assert DecodeLenient(0x09) == 90 && DecodeLenient(0x00) == 0;
    assert ClassOf(90) == HeaderKind;
    RawRecordOf(header, [90, 0, 0, 0, 0]);
  }

  /** The first lap chunk of the mismatch stream: lap 1 finishing in 1:02:03.04. */
  lemma FirstLapChunk(first: seq<byte>)
    requires first == [0x11, 0x20, 0x30, 0x40, 0x10]
    ensures RawRecord(first) == Some(LapTime(11, 2, 3, 4, 1))
    ensures CorrectOption(Initial, RawRecord(first)) == (Initial, Some(LapTime(11, 2, 3, 4, 1)))
  {
    assert DecodeLenient(0x11) == 11 && DecodeLenient(0x20) == 2 && DecodeLenient(0x30) == 3;
    assert DecodeLenient(0x40) == 4 && DecodeLenient(0x10) == 1;
    assert ClassOf(11) == LapKind;
    RawRecordOf(first, [11, 2, 3, 4, 1]);
  }

  /** The second lap chunk of the mismatch stream: raw lap 0 finishing in
      2:05:06.07, which the corrector turns into lap 100. */
  lemma SecondLapChunk(second: seq<byte>)
    requires second == [0x21, 0x50, 0x60, 0x70, 0x00]
    ensures RawRecord(second) == Some(LapTime(12, 5, 6, 7, 0))
    ensures CorrectOption(Initial, RawRecord(second)) == (Offsets(100, 0), Some(LapTime(12, 5, 6, 7, 100)))
  {
    assert DecodeLenient(0x21) == 12 && DecodeLenient(0x50) == 5 && DecodeLenient(0x60) == 6;
    assert DecodeLenient(0x70) == 7 && DecodeLenient(0x00) == 0;
    assert ClassOf(12) == LapKind;
    RawRecordOf(second, [12, 5, 6, 7, 0]);
  }

  /** The second lap of the mismatch stream on its own: its raw lap 0 is
      corrected to 100. */
  lemma SecondLapRead(second: seq<byte>)
    requires second == [0x21, 0x50, 0x60, 0x70, 0x00]
    ensures ReadRecords(Initial, second) == Ok([Some(LapTime(12, 5, 6, 7, 100))])
  {
    var l2 := Some(LapTime(12, 5, 6, 7, 100));
    assert ReadRecords(Initial, second + []) == Ok([l2] + []) by {
      SecondLapChunk(second);
      ReadRecordsCons(Initial, second, [], Offsets(100, 0), l2, []);
    }
    assert second + [] == second && [l2] + [] == [l2];
  }

  /** Both laps of the mismatch stream: the first passes through unchanged. */
  lemma BothLapsRead(first: seq<byte>, second: seq<byte>)
    requires first == [0x11, 0x20, 0x30, 0x40, 0x10]
    requires second == [0x21, 0x50, 0x60, 0x70, 0x00]
    ensures ReadRecords(Initial, first + second)
         == Ok([Some(LapTime(11, 2, 3, 4, 1)), Some(LapTime(12, 5, 6, 7, 100))])
  {
    var l1 := Some(LapTime(11, 2, 3, 4, 1));
    var l2 := Some(LapTime(12, 5, 6, 7, 100));
    assert ReadRecords(Initial, first + second) == Ok([l1] + [l2]) by {
      SecondLapRead(second);
      FirstLapChunk(first);
      ReadRecordsCons(Initial, first, second, Initial, l1, [l2]);
    }
    assert [l1] + [l2] == [l1, l2];
  }

  /** The three records of the mismatch stream, read and corrected. */
  lemma MismatchStreamRecords(header: seq<byte>, first: seq<byte>, second: seq<byte>)
    requires header == [0x09, 0x00, 0x00, 0x00, 0x00]
    requires first == [0x11, 0x20, 0x30, 0x40, 0x10]
    requires second == [0x21, 0x50, 0x60, 0x70, 0x00]
    ensures ReadRecords(Initial, header + (first + second))
         == Ok([Some(RaceHeader(90, 0, 0, 0, 0)), Some(LapTime(11, 2, 3, 4, 1)), Some(LapTime(12, 5, 6, 7, 100))])
  {
    var h := Some(RaceHeader(90, 0, 0, 0, 0));
    var laps := [Some(LapTime(11, 2, 3, 4, 1)), Some(LapTime(12, 5, 6, 7, 100))];
    assert ReadRecords(Initial, header + (first + second)) == Ok([h] + laps) by {
      BothLapsRead(first, second);
      HeaderChunk(header);
      ReadRecordsCons(Initial, header, first + second, Initial, h, laps);
    }
    assert [h] + laps == [h, laps[0], laps[1]];
  }
}

=== FILE: framing.dfy ===
/** Record framing (the non-hex path of `readRecord` in both revisions).

    The wire format has no sync bytes, length prefix or checksum: a record is
    simply the next five bytes.  Reading stops normally when the source is
    exhausted (`read(5)` returns nothing) and fails when it returns one to
    four bytes, since the stream can then not be resynchronised.
 */
module Framing {
  import opened Outcomes
  import opened Bcd

  const RecordWidth: nat := 5

  /** Split a byte stream into five-byte records. */
  function Frame(bs: seq<byte>): (r: Result<seq<seq<byte>>>)
    ensures r.Ok? <==> |bs| % RecordWidth == 0
    ensures r.Err? ==> r.error == TruncatedRecord(|bs| % RecordWidth)
    ensures r.Ok? ==> |r.value| == |bs| / RecordWidth
    ensures r.Ok? ==> forall i :: 0 <= i < |r.value| ==> |r.value[i]| == RecordWidth
    ensures r.Ok? ==> Flatten(r.value) == bs
    decreases |bs|
  {
    if |bs| == 0 then Ok([])
    else if |bs| < RecordWidth then Err(TruncatedRecord(|bs|))
    else
      var rest :- Frame(bs[RecordWidth..]);
      Ok([bs[..RecordWidth]] + rest)
  }

  /** The records laid back to back. */
  function Flatten(cs: seq<seq<byte>>): (bs: seq<byte>)
  {
    if cs == [] then [] else cs[0] + Flatten(cs[1..])
  }

  /** Framing recovers the records that were laid back to back. */
  lemma {:induction false} FrameFlatten(cs: seq<seq<byte>>)
    requires forall i :: 0 <= i < |cs| ==> |cs[i]| == RecordWidth
    ensures Frame(Flatten(cs)) == Ok(cs)
    decreases |cs|
  {
    if cs != [] {
      FrameFlatten(cs[1..]);
      var bs := Flatten(cs);
      assert bs[..RecordWidth] == cs[0];
      assert bs[RecordWidth..] == Flatten(cs[1..]);
      assert [cs[0]] + cs[1..] == cs;
    }
  }

  /** An empty source yields no records, and a source holding one record
      plus a four-byte tail fails as truncated. */
  lemma FramingVectors()
    ensures Frame([]) == Ok([])
    ensures Frame([0x09, 0x00, 0x00, 0x00, 0x00]) == Ok([[0x09, 0x00, 0x00, 0x00, 0x00]])
    ensures Frame([0x09, 0x00, 0x00, 0x00, 0x00, 0x01, 0x00, 0x00, 0x00]) == Err(TruncatedRecord(4))
  {
    var one: seq<byte> := [0x09, 0x00, 0x00, 0x00, 0x00];
    var r := Frame(one);
    assert |r.value| == 1 && Flatten(r.value) == r.value[0] + Flatten(r.value[1..]);
    assert r.value[1..] == [] && r.value[0] == one;
    assert r.value == [r.value[0]];
  }
}

=== FILE: outcomes.dfy ===
/** Failure-compatible result types shared by every stage of the decoder.

    The Python programs signal every failure with a Python `ValueError`
    (or let a serial read return nothing); here each failure is a value of
    `Error`, so that the stream decoder and the race aggregator can be pure
    functions that return a `Result`.
 */
module Outcomes {

  datatype Option<+T> = None | Some(value: T)

  /** Which nibble of a byte failed the strict BCD digit check. */
  datatype Place = Tens | Ones

  datatype Error =
    /** A nibble above 9 (strict decoder only). */
    | InvalidDigit(place: Place, raw: int)
    /** The classifier was given a list whose length is not five. */
    | InvalidLength(length: nat)
    /** The strict classifier met a type code that is not in its table. */
    | UnknownType(code: nat)
    /** The byte source ended one to four bytes into a record. */
    | TruncatedRecord(length: nat)
    /** The finisher count disagrees with the corrected lap field. */
    | SequenceError(position: nat, lap: nat)

  datatype Result<+T> = Ok(value: T) | Err(error: Error) {

    predicate IsFailure() {
      Err?
    }

    function PropagateFailure<U>(): Result<U>
      requires Err?
    {
      Err(error)
    }

    function Extract(): T
      requires Ok?
    {
      value
    }
  }
}

=== FILE: raceclock.dfy ===
/** The race aggregator of the dt2000 revision (the loop of its `__main__`).

    It walks the corrected records in order.  A RaceHeader resets the
    finisher count and the running clock; each LapTime is one finisher: the
    count goes up by one, the finisher's time (hours taken from the type
    code, `type % 10`) is added to the running H:M:S.hundredths clock with a
    carry at 100 hundredths, 60 seconds and 60 minutes, and the count must
    equal the record's corrected lap field or the run stops.  AvLapTime,
    FastestLapTime and RaceEnd only announce themselves; every other record,
    and a missing one, is ignored.  What the loop prints is modelled as one
    optional `Event` per record, carrying the printed fields.
 */
module RaceClock {
  import opened Outcomes
  import opened Records

  /** `position` and the `pos_*` carry counters. */
  datatype Clock = Clock(position: nat, hours: nat, minutes: nat, seconds: nat, hundredths: nat)

  const Reset := Clock(0, 0, 0, 0, 0)

  datatype Event =
    | NewRace
    | Finisher(position: nat, hours: nat, minutes: nat, seconds: nat, hundredths: nat)
    | RaceFinished
    | AverageLap(hours: nat, minutes: nat, seconds: nat, hundredths: nat)
    | FastestLap(hours: nat, minutes: nat, seconds: nat, hundredths: nat)

  /** The clock's lower units are within their carry limits. */
  predicate Carried(c: Clock) {
    c.hundredths < 100 && c.seconds < 60 && c.minutes < 60
  }

  /** The clock read as hundredths of a second. */
  function Total(c: Clock): nat {
    c.hours * 360000 + c.minutes * 6000 + c.seconds * 100 + c.hundredths
  }

  /** A finisher time whose units are within their limits. */
  predicate ValidTime(r: Record)
    requires r.LapTime?
  {
    r.hundredths < 100 && r.seconds < 60 && r.minutes < 60
  }

  /** A finisher's time in hundredths of a second, hours taken from the
      type code. */
  function Contribution(r: Record): nat
    requires r.LapTime?
  {
    (r.code % 10) * 360000 + r.minutes * 6000 + r.seconds * 100 + r.hundredths
  }

  /** Add one finisher to the clock: the carry arithmetic of the loop. */
  function AddLap(c: Clock, r: Record): (c': Clock)
    requires r.LapTime?
    ensures c'.position == c.position + 1
    // each unit is reduced whenever it reaches its limit, so the clock
    // stays carried whatever the record holds
    ensures Carried(c')
  {
    var h0 := c.hundredths + r.hundredths;
    var s0 := c.seconds + Carry(h0, 100) + r.seconds;
    var m0 := c.minutes + Carry(s0, 60) + r.minutes;
    Clock(c.position + 1, c.hours + Carry(m0, 60) + r.code % 10, Wrap(m0, 60), Wrap(s0, 60), Wrap(h0, 100))
  }

  /** With a carried clock and in-range units a single carry per unit is
      enough, so no time is lost: the clock total grows by exactly the
      finisher's time. */
  lemma AddLapKeepsTotal(c: Clock, r: Record)
    requires r.LapTime? && Carried(c) && ValidTime(r)
    ensures Total(AddLap(c, r)) == Total(c) + Contribution(r)
  {
  }

  /** One carry into the next unit when a unit reaches its limit. */
  function Carry(x: nat, limit: nat): nat {
    if x >= limit then 1 else 0
  }

  /** A unit after its carry: reduced modulo the limit once it reaches it,
      which takes it below the limit, and below twice the limit that is
      one subtraction of the limit. */
  function Wrap(x: nat, limit: nat): (w: nat)
    requires limit > 0
    ensures w < limit
    ensures x < limit ==> w == x
    ensures limit <= x < 2 * limit ==> w == x - limit
  {
    if x >= limit then
      assert x < 2 * limit ==> x == limit + (x - limit) && x - limit < limit;
      x % limit
    else x
  }

  /** Only in-range units keep the clock exact: 99 hundredths plus a lap of
      165 hundredths (the lenient decoder's reading of byte 0xFF) carries a
      single second and loses the other. */
  lemma CarryNeedsValidTimes()
    ensures Total(Clock(6, 5, 8, 11, 64)) + 100
         == Total(Clock(5, 1, 2, 3, 99)) + Contribution(LapTime(14, 6, 7, 165, 6))
    ensures AddLap(Clock(5, 1, 2, 3, 99), LapTime(14, 6, 7, 165, 6)) == Clock(6, 5, 8, 11, 64)
  {
  }

  /** The records the loop prints a line for: every class it has a branch
      for.  Nothing is printed for a missing record, an AbsTime record or an
      auxiliary class. */
  predicate Prints(o: Option<Record>) {
    o.Some? && (o.value.RaceHeader? || o.value.LapTime? || o.value.RaceEnd?
                || o.value.AvLapTime? || o.value.FastestLapTime?)
  }

  /** One pass of the loop body: the new clock and what was printed, or the
      mismatch error. */
  function Step(c: Clock, o: Option<Record>): (res: Result<(Clock, Option<Event>)>)
    ensures o.Some? && o.value.RaceHeader? ==> res == Ok((Reset, Some(NewRace)))
    ensures o.Some? && o.value.LapTime? ==>
      && (res.Ok? <==> c.position + 1 == o.value.lap)
      && (res.Err? ==> res.error == SequenceError(c.position + 1, o.value.lap))
      && (res.Ok? ==> res.value.0.position == c.position + 1 && res.value.1.Some?
                      && res.value.1.value.Finisher? && res.value.1.value.position == c.position + 1)
    ensures !(o.Some? && (o.value.RaceHeader? || o.value.LapTime?)) ==> res.Ok? && res.value.0 == c
    ensures o.None? ==> res == Ok((c, None))
    ensures res.Ok? && Carried(c) ==> Carried(res.value.0)
  {
    match o
    case None => Ok((c, None))
    case Some(r) =>
      match r
      case RaceHeader(_, _, _, _, _) => Ok((Reset, Some(NewRace)))
      case LapTime(_, _, _, _, lap) =>
        var c' := AddLap(c, r);
        if c'.position != lap then Err(SequenceError(c'.position, lap))
        else Ok((c', Some(Finisher(c'.position, c'.hours, c'.minutes, c'.seconds, c'.hundredths))))
      case RaceEnd(_, _, _, _, _) => Ok((c, Some(RaceFinished)))
      case AvLapTime(t, m, s, h, _) => Ok((c, Some(AverageLap(t % 10, m, s, h))))
      case FastestLapTime(t, m, s, h, _) => Ok((c, Some(FastestLap(t % 10, m, s, h))))
      case _ => Ok((c, None))
  }

  /** A loop pass prints a line exactly for the records it has a branch for. */
  lemma StepPrints(c: Clock, o: Option<Record>)
    requires Step(c, o).Ok?
    ensures Step(c, o).value.1.Some? <==> Prints(o)
  {
  }

  /** What the loop has printed, and its state or the error that stopped it. */
  datatype Report = Report(lines: seq<Option<Event>>, outcome: Result<Clock>)

  /** The loop after it has processed the records `rs`.  It keeps one entry
      per record processed, `None` where nothing was printed; it processes
      every record unless a mismatch stops it. */
  function Race(rs: seq<Option<Record>>): (rep: Report)
    ensures |rep.lines| <= |rs|
    ensures rep.outcome.Ok? ==> |rep.lines| == |rs|
    decreases |rs|
  {
    if rs == [] then Report([], Ok(Reset))
    else
      var prev := Race(rs[..|rs| - 1]);
      if prev.outcome.Err? then prev
      else
        match Step(prev.outcome.value, rs[|rs| - 1])
        case Err(e) => Report(prev.lines, Err(e))
        case Ok((c, e)) => Report(prev.lines + [e], Ok(c))
  }

  /** One more record continues the loop from where it stopped. */
  lemma RaceSnoc(rs: seq<Option<Record>>, x: Option<Record>)
    ensures Race(rs).outcome.Err? ==> Race(rs + [x]) == Race(rs)
    ensures Race(rs).outcome.Ok? && Step(Race(rs).outcome.value, x).Ok? ==>
      var (c, e) := Step(Race(rs).outcome.value, x).value;
      Race(rs + [x]) == Report(Race(rs).lines + [e], Ok(c))
    ensures Race(rs).outcome.Ok? && Step(Race(rs).outcome.value, x).Err? ==>
      Race(rs + [x]) == Report(Race(rs).lines, Err(Step(Race(rs).outcome.value, x).error))
  {
    assert (rs + [x])[..|rs|] == rs;
  }

  /** Reference: LapTime records since the last header. */
  function Finishers(rs: seq<Option<Record>>): nat {
    if rs == [] then 0
    else
      var x := rs[|rs| - 1];
      if x.Some? && x.value.RaceHeader? then 0
      else Finishers(rs[..|rs| - 1]) + (if x.Some? && x.value.LapTime? then 1 else 0)
  }

  /** Reference: total finisher time since the last header, in hundredths. */
  function Elapsed(rs: seq<Option<Record>>): nat {
    if rs == [] then 0
    else
      var x := rs[|rs| - 1];
      if x.Some? && x.value.RaceHeader? then 0
      else Elapsed(rs[..|rs| - 1]) + (if x.Some? && x.value.LapTime? then Contribution(x.value) else 0)
  }

  /** Every finisher time in the stream has in-range units. */
  predicate AllTimesValid(rs: seq<Option<Record>>) {
    forall i :: 0 <= i < |rs| && rs[i].Some? && rs[i].value.LapTime? ==> ValidTime(rs[i].value)
  }

  /** Every LapTime's corrected lap equals its finisher count. */
  predicate Consistent(rs: seq<Option<Record>>) {
    if rs == [] then true
    else
      var x := rs[|rs| - 1];
      Consistent(rs[..|rs| - 1]) && (x.Some? && x.value.LapTime? ==> Finishers(rs) == x.value.lap)
  }

  /** Split hundredths of a second into hours, minutes, seconds, hundredths. */
  function Hours(t: nat): nat { t / 360000 }
  function Minutes(t: nat): nat { (t / 6000) % 60 }
  function Seconds(t: nat): nat { (t / 100) % 60 }
  function Hundredths(t: nat): nat { t % 100 }

  /** Reference: what the loop prints for the last record of `p`. */
  function Notice(p: seq<Option<Record>>): Option<Event>
    requires |p| > 0
  {
    match p[|p| - 1]
    case None => None
    case Some(r) =>
      match r
      case RaceHeader(_, _, _, _, _) => Some(NewRace)
      case LapTime(_, _, _, _, _) =>
        var t := Elapsed(p);
        Some(Finisher(Finishers(p), Hours(t), Minutes(t), Seconds(t), Hundredths(t)))
      case RaceEnd(_, _, _, _, _) => Some(RaceFinished)
      case AvLapTime(t, m, s, h, _) => Some(AverageLap(t % 10, m, s, h))
      case FastestLapTime(t, m, s, h, _) => Some(FastestLap(t % 10, m, s, h))
      case _ => None
  }

  /** Reference: what the loop prints for every record of `rs`. */
  function Notices(rs: seq<Option<Record>>): (ns: seq<Option<Event>>)
    ensures |ns| == |rs|
  {
    if rs == [] then [] else Notices(rs[..|rs| - 1]) + [Notice(rs)]
  }

  /** A carried clock is the split of its own total. */
  lemma SplitTotal(c: Clock)
    requires Carried(c)
    ensures Hours(Total(c)) == c.hours && Minutes(Total(c)) == c.minutes
    ensures Seconds(Total(c)) == c.seconds && Hundredths(Total(c)) == c.hundredths
  {
    var t := Total(c);
    var secs := c.hours * 3600 + c.minutes * 60 + c.seconds;
    var mins := c.hours * 60 + c.minutes;
    assert t == secs * 100 + c.hundredths;
    assert t / 100 == secs && t % 100 == c.hundredths;
    assert secs == mins * 60 + c.seconds;
    assert secs % 60 == c.seconds;
    assert t == mins * 6000 + (c.seconds * 100 + c.hundredths);
    assert t / 6000 == mins;
    assert mins % 60 == c.minutes;
    assert t == c.hours * 360000 + (c.minutes * 6000 + c.seconds * 100 + c.hundredths);
    assert t / 360000 == c.hours;
  }

  /** A stream whose finisher counts all match runs to the end: the count is
      the number of finishers since the last header, the clock is carried,
      there is one entry per record, and with in-range times the clock
      holds exactly the finishers' summed time. */
  lemma {:induction false} RaceAgreesWithReference(rs: seq<Option<Record>>)
    ensures Race(rs).outcome.Ok? <==> Consistent(rs)
    ensures Race(rs).outcome.Ok? ==>
      && Race(rs).outcome.value.position == Finishers(rs)
      && Carried(Race(rs).outcome.value)
      && |Race(rs).lines| == |rs|
      && (AllTimesValid(rs) ==> Total(Race(rs).outcome.value) == Elapsed(rs))
    decreases |rs|
  {
    if rs != [] {
      var init := rs[..|rs| - 1];
      RaceAgreesWithReference(init);
      var prev := Race(init);
      if prev.outcome.Ok? {
        if AllTimesValid(rs) {
          AllTimesValidPrefix(rs);
        }
        var step := Step(prev.outcome.value, rs[|rs| - 1]);
        StepAgrees(rs, prev.outcome.value);
        if step.Ok? {
          assert Race(rs) == Report(prev.lines + [step.value.1], Ok(step.value.0));
        }
      } else {
        assert Race(rs) == prev;
      }
    }
  }

  /** The entries the loop keeps are printed lines exactly for the records
      it has a branch for. */
  lemma {:induction false} RaceLines(rs: seq<Option<Record>>)
    ensures forall i :: 0 <= i < |Race(rs).lines| ==> (Race(rs).lines[i].Some? <==> Prints(rs[i]))
    decreases |rs|
  {
    if rs != [] {
      var init := rs[..|rs| - 1];
      RaceLines(init);
      assert forall i :: 0 <= i < |init| ==> init[i] == rs[i];
      var prev := Race(init);
      if prev.outcome.Ok? && Step(prev.outcome.value, rs[|rs| - 1]).Ok? {
        StepPrints(prev.outcome.value, rs[|rs| - 1]);
      }
    }
  }

  /** One loop pass from a clock that agrees with the reference on all but
      the last record agrees with it on the whole stream. */
  lemma StepAgrees(rs: seq<Option<Record>>, c: Clock)
    requires rs != []
    requires c.position == Finishers(rs[..|rs| - 1]) && Carried(c)
    requires AllTimesValid(rs) ==> Total(c) == Elapsed(rs[..|rs| - 1])
    ensures var x := rs[|rs| - 1];
      Step(c, x).Ok? <==> (x.Some? && x.value.LapTime? ==> Finishers(rs) == x.value.lap)
    ensures Step(c, rs[|rs| - 1]).Ok? ==>
      && Step(c, rs[|rs| - 1]).value.0.position == Finishers(rs)
      && Carried(Step(c, rs[|rs| - 1]).value.0)
      && (AllTimesValid(rs) ==> Total(Step(c, rs[|rs| - 1]).value.0) == Elapsed(rs))
  {
    var x := rs[|rs| - 1];
    if x.Some? && x.value.LapTime? && AllTimesValid(rs) {
      assert ValidTime(x.value);
      AddLapKeepsTotal(c, x.value);
    }
  }

  /** Dropping the last record keeps every time in range. */
  lemma AllTimesValidPrefix(rs: seq<Option<Record>>)
    requires rs != [] && AllTimesValid(rs)
    ensures AllTimesValid(rs[..|rs| - 1])
  {
    var init := rs[..|rs| - 1];
    forall i | 0 <= i < |init| && init[i].Some? && init[i].value.LapTime?
      ensures ValidTime(init[i].value)
    {
      assert init[i] == rs[i];
    }
  }

  /** The line one loop pass prints is the reference line, when the clock
      it starts from agrees with the reference. */
  lemma StepPrintsNotice(rs: seq<Option<Record>>, c: Clock)
    requires rs != []
    requires c.position == Finishers(rs[..|rs| - 1]) && Carried(c)
    requires Total(c) == Elapsed(rs[..|rs| - 1])
    requires rs[|rs| - 1].Some? && rs[|rs| - 1].value.LapTime? ==> ValidTime(rs[|rs| - 1].value)
    requires Step(c, rs[|rs| - 1]).Ok?
    ensures Step(c, rs[|rs| - 1]).value.1 == Notice(rs)
  {
    var x := rs[|rs| - 1];
    if x.Some? && x.value.LapTime? {
      var c' := AddLap(c, x.value);
      AddLapKeepsTotal(c, x.value);
      assert Total(c') == Elapsed(rs);
      SplitTotal(c');
    }
  }

  /** With matching counts and in-range times, every printed line is the
      reference line for its record. */
  lemma {:induction false} RacePrintsNotices(rs: seq<Option<Record>>)
    requires Consistent(rs) && AllTimesValid(rs)
    ensures Race(rs).lines == Notices(rs)
    decreases |rs|
  {
    if rs != [] {
      var init := rs[..|rs| - 1];
      AllTimesValidPrefix(rs);
      RacePrintsNotices(init);
      RaceAgreesWithReference(init);
      RaceAgreesWithReference(rs);
      var c := Race(init).outcome.value;
      assert rs[|rs| - 1].Some? && rs[|rs| - 1].value.LapTime? ==> ValidTime(rs[|rs| - 1].value);
      StepPrintsNotice(rs, c);
    }
  }

  /** The first LapTime whose corrected lap disagrees with its finisher
      count. */
  predicate FirstMismatch(rs: seq<Option<Record>>, k: nat) {
    k < |rs| && Consistent(rs[..k]) && !Consistent(rs[..k + 1])
  }

  /** A stream whose counts do not all match stops at the first mismatch,
      with the error naming the count and the lap, and nothing printed for
      that record or after it. */
  lemma {:induction false} RaceStopsAtFirstMismatch(rs: seq<Option<Record>>)
    requires !Consistent(rs)
    ensures exists k: nat ::
      (FirstMismatch(rs, k)
       && rs[k].Some? && rs[k].value.LapTime?
       && Race(rs).outcome == Err(SequenceError(Finishers(rs[..k + 1]), rs[k].value.lap))
       && Race(rs).lines == Race(rs[..k]).lines)
    decreases |rs|
  {
    var init := rs[..|rs| - 1];
    var x := rs[|rs| - 1];
    if !Consistent(init) {
      RaceStopsAtFirstMismatch(init);
      var k: nat :| FirstMismatch(init, k)
        && init[k].Some? && init[k].value.LapTime?
        && Race(init).outcome == Err(SequenceError(Finishers(init[..k + 1]), init[k].value.lap))
        && Race(init).lines == Race(init[..k]).lines;
      assert rs[..k] == init[..k] && rs[..k + 1] == init[..k + 1] && rs[k] == init[k];
      assert FirstMismatch(rs, k);
    } else {
      var k := |rs| - 1;
      assert rs[..k] == init && rs[..k + 1] == rs;
      RaceAgreesWithReference(init);
      RaceAgreesWithReference(rs);
      assert FirstMismatch(rs, k);
    }
  }

  /** A header alone announces a new race and leaves the clock reset. */
  lemma RaceHeaderOnly()
    ensures Race([Some(RaceHeader(90, 0, 0, 0, 0))]) == Report([Some(NewRace)], Ok(Reset))
  {
    var rs := [Some(RaceHeader(90, 0, 0, 0, 0))];
    assert rs[..|rs| - 1] == [];
  }

  /** A finisher whose lap is the next position and whose units add to the
      clock's without a carry is printed with the summed time. */
  lemma StepWithoutCarry(c: Clock, r: Record)
    requires r.LapTime? && r.lap == c.position + 1
    requires c.hundredths + r.hundredths < 100 && c.seconds + r.seconds < 60 && c.minutes + r.minutes < 60
    ensures Step(c, Some(r))
         == Ok((Clock(c.position + 1, c.hours + r.code % 10, c.minutes + r.minutes, c.seconds + r.seconds, c.hundredths + r.hundredths),
                Some(Finisher(c.position + 1, c.hours + r.code % 10, c.minutes + r.minutes, c.seconds + r.seconds, c.hundredths + r.hundredths))))
  {
    AddLapWithoutCarry(c, r);
  }

  /** When no unit reaches its limit the finisher's units are simply added
      to the clock's, and the hours gain the last digit of the type code. */
  lemma AddLapWithoutCarry(c: Clock, r: Record)
    requires r.LapTime?
    requires c.hundredths + r.hundredths < 100 && c.seconds + r.seconds < 60 && c.minutes + r.minutes < 60
    ensures AddLap(c, r)
         == Clock(c.position + 1, c.hours + r.code % 10, c.minutes + r.minutes,
                  c.seconds + r.seconds, c.hundredths + r.hundredths)
  {
  }

  /** A header, then a finisher with lap 1 and in-range units: the loop
      announces the race and the finisher, whose finishing time is the lap
      time with its hours taken from the type code. */
  lemma RaceFirstFinisher(rs: seq<Option<Record>>, hd: Record, r: Record)
    requires hd.RaceHeader? && r.LapTime? && r.lap == 1 && ValidTime(r)
    requires rs == [Some(hd), Some(r)]
    ensures Race(rs)
         == Report([Some(NewRace), Some(Finisher(1, r.code % 10, r.minutes, r.seconds, r.hundredths))],
                   Ok(Clock(1, r.code % 10, r.minutes, r.seconds, r.hundredths)))
  {
    var h := [Some(hd)];
    var e := Some(Finisher(1, r.code % 10, r.minutes, r.seconds, r.hundredths));
    assert Race(h) == Report([Some(NewRace)], Ok(Reset)) by {
      assert h[..0] == [];
    }
    StepWithoutCarry(Reset, r);
    assert rs == h + [Some(r)];
    RaceContinues(h, Some(r), [Some(NewRace)], Reset, Clock(1, r.code % 10, r.minutes, r.seconds, r.hundredths), e);
    assert [Some(NewRace)] + [e] == [Some(NewRace), e];
  }

  /** A step that succeeds extends the loop's lines and replaces its clock. */
  lemma RaceContinues(rs: seq<Option<Record>>, x: Option<Record>, lines: seq<Option<Event>>,
                      c: Clock, c': Clock, e: Option<Event>)
    requires Race(rs) == Report(lines, Ok(c)) && Step(c, x) == Ok((c', e))
    ensures Race(rs + [x]) == Report(lines + [e], Ok(c'))
  {
    RaceSnoc(rs, x);
  }

  /** A second finisher whose lap was corrected to 100 is not the second
      finisher. */
  lemma StepRejectsWrappedLap()
    ensures Step(Clock(1, 1, 2, 3, 4), Some(LapTime(12, 5, 6, 7, 100))) == Err(SequenceError(2, 100))
  {
  }

  /** A step that fails stops the loop with the lines printed so far. */
  lemma RaceStopsAt(rs: seq<Option<Record>>, x: Option<Record>, lines: seq<Option<Event>>, c: Clock, e: Error)
    requires Race(rs) == Report(lines, Ok(c)) && Step(c, x) == Err(e)
    ensures Race(rs + [x]) == Report(lines, Err(e))
  {
    RaceSnoc(rs, x);
  }

  /** A second finisher whose lap was corrected to 100 stops the loop with
      the count 2 and the lap 100, after the two earlier lines. */
  lemma RaceStopsOnWrappedLap(rs: seq<Option<Record>>)
    requires rs == [Some(RaceHeader(90, 0, 0, 0, 0)), Some(LapTime(11, 2, 3, 4, 1)), Some(LapTime(12, 5, 6, 7, 100))]
    ensures Race(rs) == Report([Some(NewRace), Some(Finisher(1, 1, 2, 3, 4))], Err(SequenceError(2, 100)))
  {
    var prefix := rs[..2];
    assert prefix == [Some(RaceHeader(90, 0, 0, 0, 0)), Some(LapTime(11, 2, 3, 4, 1))];
    assert prefix + [rs[2]] == rs;
    RaceFirstFinisher(prefix, RaceHeader(90, 0, 0, 0, 0), LapTime(11, 2, 3, 4, 1));
    StepRejectsWrappedLap();
    RaceStopsAt(prefix, rs[2], [Some(NewRace), Some(Finisher(1, 1, 2, 3, 4))], Clock(1, 1, 2, 3, 4), SequenceError(2, 100));
  }
}

=== FILE: racefilter.dfy ===
/** The race filter of the ultrak498 revision (the loop of its `__main__`).

    It walks the corrected records in order, remembering the id of the most
    recent record whose type code is below ten (a RaceHeader), and for every
    record with type code 20 (an AbsTime) while that id is the requested
    race, prints one CSV line: the corrected lap, the time, and the time in
    hundredths of a second.  The printed line is modelled as a `Row` value.
 */
module RaceFilter {
  import opened Records

  /** One CSV line: `lap,minutes:seconds.hundredths,total`. */
  datatype Row = Row(lap: nat, minutes: nat, seconds: nat, hundredths: nat, total: nat)

  /** What the loop's attribute reads rely on: a code below ten is a header
      (it reads `id`), and code 20 is an AbsTime (it reads the time and lap). */
  predicate Shaped(r: Record) {
    (r.code < 10 ==> r.RaceHeader?) && (r.code == 20 ==> r.AbsTime?)
  }

  predicate AllShaped(rs: seq<Record>) {
    forall i :: 0 <= i < |rs| ==> Shaped(rs[i])
  }

  /** A time in hundredths of a second. */
  function TotalHundredths(minutes: nat, seconds: nat, hundredths: nat): nat {
    minutes * 60 * 100 + seconds * 100 + hundredths
  }

  /** With in-range seconds and hundredths the total determines the printed
      time: it splits back into the same minutes, seconds and hundredths. */
  lemma TotalHundredthsSplits(minutes: nat, seconds: nat, hundredths: nat)
    requires seconds < 60 && hundredths < 100
    ensures TotalHundredths(minutes, seconds, hundredths) / 6000 == minutes
    ensures (TotalHundredths(minutes, seconds, hundredths) / 100) % 60 == seconds
    ensures TotalHundredths(minutes, seconds, hundredths) % 100 == hundredths
  {
    var t := TotalHundredths(minutes, seconds, hundredths);
    var secs := minutes * 60 + seconds;
    assert t == secs * 100 + hundredths;
    assert t / 100 == secs;
    assert t == minutes * 6000 + (seconds * 100 + hundredths);
  }

  /** The line printed for an AbsTime record. */
  function RowOf(r: Record): Row
    requires r.AbsTime?
  {
    Row(r.lap, r.minutes, r.seconds, r.hundredths, TotalHundredths(r.minutes, r.seconds, r.hundredths))
  }

  /** The race id in force after the records `rs`: the id of the last header
      among them, or 0 before any header. */
  function CurrentRace(rs: seq<Record>): nat
    requires AllShaped(rs)
  {
    if rs == [] then 0
    else
      var x := rs[|rs| - 1];
      if x.code < 10 then x.id else CurrentRace(rs[..|rs| - 1])
  }

  /** Reference: the lines printed for the records `rs`, in order. */
  function Selected(rs: seq<Record>, raceid: nat): seq<Row>
    requires AllShaped(rs)
  {
    if rs == [] then []
    else
      var x := rs[|rs| - 1];
      Selected(rs[..|rs| - 1], raceid) + (if x.code == 20 && CurrentRace(rs) == raceid then [RowOf(x)] else [])
  }

  /** The printing loop. */
  method FilterRows(rs: seq<Record>, raceid: nat) returns (rows: seq<Row>)
    requires AllShaped(rs)
    ensures rows == Selected(rs, raceid)
  {
    var current := 0;
    rows := [];
    var i := 0;
    while i < |rs|
      invariant 0 <= i <= |rs|
      invariant current == CurrentRace(rs[..i])
      invariant rows == Selected(rs[..i], raceid)
    {
      var r := rs[i];
      assert rs[..i + 1][..i] == rs[..i] && rs[..i + 1][i] == r;
      if r.code < 10 {
        current := r.id;
      }
      if r.code == 20 && current == raceid {
        rows := rows + [RowOf(r)];
      }
      i := i + 1;
    }
    assert rs[..|rs|] == rs;
  }

  /** Record `i` is an AbsTime of race `raceid`. */
  predicate Listed(rs: seq<Record>, raceid: nat, i: nat)
    requires AllShaped(rs)
  {
    i < |rs| && rs[i].code == 20 && CurrentRace(rs[..i + 1]) == raceid
  }

  /** Every printed line comes from an AbsTime record of the requested race. */
  lemma {:induction false} SelectedSound(rs: seq<Record>, raceid: nat)
    requires AllShaped(rs)
    ensures forall row :: row in Selected(rs, raceid) ==>
      exists i: nat :: Listed(rs, raceid, i) && row == RowOf(rs[i])
    decreases |rs|
  {
    if rs != [] {
      var init := rs[..|rs| - 1];
      SelectedSound(init, raceid);
      forall row | row in Selected(rs, raceid)
        ensures exists i: nat :: Listed(rs, raceid, i) && row == RowOf(rs[i])
      {
        if row in Selected(init, raceid) {
          var i: nat :| Listed(init, raceid, i) && row == RowOf(init[i]);
          assert rs[..i + 1] == init[..i + 1] && rs[i] == init[i];
          assert Listed(rs, raceid, i);
        } else {
          assert rs[..|rs|] == rs;
          assert Listed(rs, raceid, |rs| - 1);
        }
      }
    }
  }

  /** Every AbsTime record of the requested race is printed. */
  lemma {:induction false} SelectedComplete(rs: seq<Record>, raceid: nat)
    requires AllShaped(rs)
    ensures forall i: nat :: Listed(rs, raceid, i) ==> RowOf(rs[i]) in Selected(rs, raceid)
    decreases |rs|
  {
    if rs != [] {
      var init := rs[..|rs| - 1];
      SelectedComplete(init, raceid);
      forall i: nat | Listed(rs, raceid, i)
        ensures RowOf(rs[i]) in Selected(rs, raceid)
      {
        if i < |init| {
          assert rs[..i + 1] == init[..i + 1] && rs[i] == init[i];
          assert Listed(init, raceid, i);
        } else {
          assert rs[..i + 1] == rs;
        }
      }
    }
  }

  /** An AbsTime after the requested race's header is printed with its
      total; one after another race's header is not; and one before any
      header belongs to race 0. */
  lemma FilterVector()
    ensures Selected([RaceHeader(1, 0, 0, 0, 1), AbsTime(20, 1, 2, 3, 1)], 1) == [Row(1, 1, 2, 3, 6203)]
    ensures Selected([RaceHeader(2, 0, 0, 0, 2), AbsTime(20, 1, 2, 3, 1)], 1) == []
    ensures Selected([AbsTime(20, 0, 0, 5, 1)], 0) == [Row(1, 0, 0, 5, 5)]
  {
    var c := [AbsTime(20, 0, 0, 5, 1)];
    assert c[..0] == [];
    var a := [RaceHeader(1, 0, 0, 0, 1), AbsTime(20, 1, 2, 3, 1)];
    assert a[..1][..0] == [] && a[..|a| - 1] == a[..1];
    var b := [RaceHeader(2, 0, 0, 0, 2), AbsTime(20, 1, 2, 3, 1)];
    assert b[..1][..0] == [] && b[..|b| - 1] == b[..1];
  }
}

=== FILE: records.dfy ===
/** The typed records the console's five integers are turned into.

    In the Python program every record is a five-field named tuple whose
    class name ("RaceHeader", "LapTime", ...) is chosen by the type code in
    its first field; the overflow corrector and the race loop dispatch on
    that class name.  Here each class is a constructor of `Record`, and the
    type code keeps its own field, `code`, because the race loop reads
    hours out of it (`type % 10`).
 */
module Records {
  import opened Outcomes

  /** Which named-tuple class a classification table selects. */
  datatype Kind =
    | HeaderKind
    | LapKind
    | AbsKind
    | AvLapKind
    | FastestKind
    | EndKind
    /** Classes with fields "type a b c laps", named "Type" + tag
        (Type30, Type40, Type61, ...). */
    | AuxKind(tag: nat)

  datatype Record =
    | RaceHeader(code: nat, year: nat, month: nat, day: nat, id: nat)
    | LapTime(code: nat, minutes: nat, seconds: nat, hundredths: nat, lap: nat)
    | AbsTime(code: nat, minutes: nat, seconds: nat, hundredths: nat, lap: nat)
    | AvLapTime(code: nat, minutes: nat, seconds: nat, hundredths: nat, laps: nat)
    | FastestLapTime(code: nat, minutes: nat, seconds: nat, hundredths: nat, laps: nat)
    | RaceEnd(code: nat, minutes: nat, seconds: nat, hundredths: nat, laps: nat)
    | Auxiliary(tag: nat, code: nat, a: nat, b: nat, c: nat, laps: nat)

  function KindOf(r: Record): Kind {
    match r
    case RaceHeader(_, _, _, _, _) => HeaderKind
    case LapTime(_, _, _, _, _) => LapKind
    case AbsTime(_, _, _, _, _) => AbsKind
    case AvLapTime(_, _, _, _, _) => AvLapKind
    case FastestLapTime(_, _, _, _, _) => FastestKind
    case RaceEnd(_, _, _, _, _) => EndKind
    case Auxiliary(t, _, _, _, _, _) => AuxKind(t)
  }

  /** The record read as the plain tuple it is in the Python program. */
  function Fields(r: Record): (fs: seq<nat>)
    ensures |fs| == 5 && fs[0] == r.code
  {
    match r
    case RaceHeader(t, y, m, d, i) => [t, y, m, d, i]
    case LapTime(t, m, s, h, l) => [t, m, s, h, l]
    case AbsTime(t, m, s, h, l) => [t, m, s, h, l]
    case AvLapTime(t, m, s, h, l) => [t, m, s, h, l]
    case FastestLapTime(t, m, s, h, l) => [t, m, s, h, l]
    case RaceEnd(t, m, s, h, l) => [t, m, s, h, l]
    case Auxiliary(_, t, a, b, c, l) => [t, a, b, c, l]
  }

  /** `namedtuple._make`: build the record of class `k` from five integers,
      copying them positionally. */
  function Make(k: Kind, ints: seq<nat>): (r: Record)
    requires |ints| == 5
    ensures KindOf(r) == k
    ensures Fields(r) == ints
  {
    match k
    case HeaderKind => RaceHeader(ints[0], ints[1], ints[2], ints[3], ints[4])
    case LapKind => LapTime(ints[0], ints[1], ints[2], ints[3], ints[4])
    case AbsKind => AbsTime(ints[0], ints[1], ints[2], ints[3], ints[4])
    case AvLapKind => AvLapTime(ints[0], ints[1], ints[2], ints[3], ints[4])
    case FastestKind => FastestLapTime(ints[0], ints[1], ints[2], ints[3], ints[4])
    case EndKind => RaceEnd(ints[0], ints[1], ints[2], ints[3], ints[4])
    case AuxKind(t) => Auxiliary(t, ints[0], ints[1], ints[2], ints[3], ints[4])
  }

  /** The record with its lap field replaced (`record._replace(lap=...)`). */
  function WithLap(r: Record, lap: nat): (r': Record)
    requires r.LapTime? || r.AbsTime?
    ensures KindOf(r') == KindOf(r) && r'.lap == lap
    ensures Fields(r')[..4] == Fields(r)[..4]
  {
    match r
    case LapTime(t, m, s, h, _) => LapTime(t, m, s, h, lap)
    case AbsTime(t, m, s, h, _) => AbsTime(t, m, s, h, lap)
  }

  /** A record is determined by its class and its five fields. */
  lemma MakeFieldsRoundTrip(r: Record)
    ensures Make(KindOf(r), Fields(r)) == r
  {
  }

  /** Classify five integers with a type-code table (the dictionary
      `valid_types`, given as a lookup that answers `None` for a code it
      does not hold): a length other than five is an error, a code missing
      from the table yields no record, and a known code yields the record of
      the table's class with the integers copied in order. */
  function ClassifyWith(table: nat -> Option<Kind>, ints: seq<nat>): (r: Result<Option<Record>>)
    ensures r.Err? <==> |ints| != 5
    ensures r.Err? ==> r.error == InvalidLength(|ints|)
    ensures r.Ok? ==> (r.value.Some? <==> table(ints[0]).Some?)
    ensures r.Ok? && r.value.Some? ==>
      KindOf(r.value.value) == table(ints[0]).value && Fields(r.value.value) == ints
  {
    if |ints| != 5 then Err(InvalidLength(|ints|))
    else
      match table(ints[0])
      case None => Ok(None)
      case Some(k) => Ok(Some(Make(k, ints)))
  }
}

=== FILE: ultrak498.dfy ===
/** The ultrak498 revision of the record pipeline: strict BCD decoding, a
    smaller type-code table whose unknown codes are errors, and the same
    corrector and framing as the dt2000 revision.  Any decoding,
    classification or framing error aborts the whole read, because the
    program collects every record into a list before using any of them.
 */
module Ultrak498 {
  import opened Outcomes
  import opened Bcd
  import opened Records
  import opened Corrector
  import opened Framing
  import opened RaceFilter

  /** `valid_types` of this revision, entry by entry.  Its entries are
      exactly RaceHeader at 0..9, LapTime at 10, AbsTime at 20, Type30 and
      Type40, and RaceEnd at 50. */
  function Table(code: nat): (k: Option<Kind>)
    ensures k.Some? <==> KnownCode(code)
    ensures k.Some? ==> k.value == ClassOf(code)
  {
    match code
    case 0 => Some(HeaderKind)
    case 1 => Some(HeaderKind)
    case 2 => Some(HeaderKind)
    case 3 => Some(HeaderKind)
    case 4 => Some(HeaderKind)
    case 5 => Some(HeaderKind)
    case 6 => Some(HeaderKind)
    case 7 => Some(HeaderKind)
    case 8 => Some(HeaderKind)
    case 9 => Some(HeaderKind)
    case 10 => Some(LapKind)
    case 20 => Some(AbsKind)
    case 30 => Some(AuxKind(30))
    case 40 => Some(AuxKind(40))
    case 50 => Some(EndKind)
    case _ => None
  }

  /** The codes the table holds: the ten header codes and five tens. */
  predicate KnownCode(code: nat) {
    code <= 9 || code in {10, 20, 30, 40, 50}
  }

  /** The class each code selects. */
  function ClassOf(code: nat): Kind
    requires KnownCode(code)
  {
    if code <= 9 then HeaderKind
    else if code == 10 then LapKind
    else if code == 20 then AbsKind
    else if code == 50 then EndKind
    else AuxKind(code)
  }

  /** `integer_list_to_named_tuple` of this revision: a wrong length raises
      first, then an unknown type code raises naming the code. */
  function Classify(ints: seq<nat>): (r: Result<Record>)
    ensures r.Ok? <==> |ints| == 5 && KnownCode(ints[0])
    ensures |ints| != 5 ==> r == Err(InvalidLength(|ints|))
    ensures |ints| == 5 && !KnownCode(ints[0]) ==> r == Err(UnknownType(ints[0]))
    ensures r.Ok? ==> KindOf(r.value) == ClassOf(ints[0]) && Fields(r.value) == ints
  {
    var o :- ClassifyWith(Table, ints);
    if o.None? then Err(UnknownType(ints[0])) else Ok(o.value)
  }

  /** The classifier's tests: known codes map their integers positionally
      onto the class's fields, an unknown code and wrong lengths raise. */
  lemma ClassifyVectors()
    ensures Classify([1, 0, 0, 0, 0]) == Ok(RaceHeader(1, 0, 0, 0, 0))
    ensures Classify([2, 1, 2, 3, 4]) == Ok(RaceHeader(2, 1, 2, 3, 4))
    ensures Classify([10, 1, 2, 3, 4]) == Ok(LapTime(10, 1, 2, 3, 4))
    ensures Classify([20, 1, 2, 3, 4]) == Ok(AbsTime(20, 1, 2, 3, 4))
    ensures Classify([50, 1, 2, 3, 4]) == Ok(RaceEnd(50, 1, 2, 3, 4))
    ensures Classify([99, 0, 0, 0, 0]) == Err(UnknownType(99))
    ensures Classify([]) == Err(InvalidLength(0))
    ensures Classify([0, 0, 0]) == Err(InvalidLength(3))
  {
    MakeFieldsRoundTrip(RaceHeader(1, 0, 0, 0, 0));
    MakeFieldsRoundTrip(RaceHeader(2, 1, 2, 3, 4));
    MakeFieldsRoundTrip(LapTime(10, 1, 2, 3, 4));
    MakeFieldsRoundTrip(AbsTime(20, 1, 2, 3, 4));
    MakeFieldsRoundTrip(RaceEnd(50, 1, 2, 3, 4));
  }

  /** A record whose class is the one its type code selects. */
  predicate Classified(r: Record) {
    KnownCode(r.code) && KindOf(r) == ClassOf(r.code)
  }

  /** A record as it comes out of this revision's classifier: classified,
      and every field a decoded byte. */
  predicate FromWire(r: Record) {
    Classified(r) && forall i :: 0 <= i < 5 ==> Fields(r)[i] <= 99
  }

  /** Headers are exactly the classified records with a code below ten, and
      AbsTime records exactly those with code 20, so the race filter's tests
      on the type code pick the right classes. */
  lemma ClassifiedShape(r: Record)
    requires Classified(r)
    ensures r.code < 10 <==> r.RaceHeader?
    ensures r.code == 20 <==> r.AbsTime?
  {
  }

  /** A five-byte record that decodes and classifies. */
  predicate ValidChunk(chunk: seq<byte>)
    requires |chunk| == RecordWidth
  {
    (forall i :: 0 <= i < RecordWidth ==> IsBcd(chunk[i])) && KnownCode(DecodeLenient(chunk[0]))
  }

  /** Decode and classify one full five-byte record. */
  function RawRecord(chunk: seq<byte>): (r: Result<Record>)
    requires |chunk| == RecordWidth
    ensures r.Ok? <==> ValidChunk(chunk)
    ensures r.Ok? ==> Fields(r.value) == DecodeAllLenient(chunk) && FromWire(r.value)
    ensures r.Err? ==> r.error.InvalidDigit? || r.error.UnknownType?
    ensures !(forall i :: 0 <= i < RecordWidth ==> IsBcd(chunk[i])) ==>
      r == Err(DecodeAllStrict(chunk).error)
    ensures (forall i :: 0 <= i < RecordWidth ==> IsBcd(chunk[i])) && !KnownCode(DecodeLenient(chunk[0])) ==>
      r == Err(UnknownType(DecodeLenient(chunk[0])))
  {
    var ints :- DecodeAllStrict(chunk);
    DecodedValidBytesBelow100(chunk);
    Classify(ints)
  }

  /** The record generator `readRecord` collected into a list, as
      `readRecords` does: the first error of any kind ends the read. */
  function ReadRecords(s: Offsets, bs: seq<byte>): (r: Result<seq<Record>>)
    ensures r.Ok? ==> |bs| % RecordWidth == 0 && |r.value| == |bs| / RecordWidth
    ensures r.Ok? ==> forall i :: 0 <= i < |r.value| ==> Classified(r.value[i])
    ensures r.Err? ==> r.error.TruncatedRecord? || r.error.InvalidDigit? || r.error.UnknownType?
    decreases |bs|
  {
    if |bs| == 0 then Ok([])
    else if |bs| < RecordWidth then Err(TruncatedRecord(|bs|))
    else
      assert |bs| % RecordWidth == |bs[RecordWidth..]| % RecordWidth;
      assert |bs| / RecordWidth == |bs[RecordWidth..]| / RecordWidth + 1;
      var r :- RawRecord(bs[..RecordWidth]);
      var (s1, r1) := Correct(s, r);
      assert r1.code == r.code && KindOf(r1) == KindOf(r);
      var rest :- ReadRecords(s1, bs[RecordWidth..]);
      Ok([r1] + rest)
  }

  /** Every record of a framed stream is valid. */
  predicate AllValid(cs: seq<seq<byte>>)
    requires forall i :: 0 <= i < |cs| ==> |cs[i]| == RecordWidth
  {
    forall i :: 0 <= i < |cs| ==> ValidChunk(cs[i])
  }

  /** Every record of a framed stream of valid records, classified. */
  function RawRecords(cs: seq<seq<byte>>): (rs: seq<Record>)
    requires forall i :: 0 <= i < |cs| ==> |cs[i]| == RecordWidth
    requires AllValid(cs)
    ensures |rs| == |cs|
    ensures forall i :: 0 <= i < |cs| ==> rs[i] == RawRecord(cs[i]).value
  {
    if cs == [] then [] else [RawRecord(cs[0]).value] + RawRecords(cs[1..])
  }

  /** The interleaved generator succeeds exactly when the stream frames and
      every record is valid, and then it computes the staged pipeline:
      classify every record, then run the corrector over the list. */
  lemma {:induction false} ReadRecordsStaged(s: Offsets, bs: seq<byte>)
    ensures ReadRecords(s, bs).Ok? <==> Frame(bs).Ok? && AllValid(Frame(bs).value)
    ensures ReadRecords(s, bs).Ok? ==>
      ReadRecords(s, bs).value == CorrectAll(s, RawRecords(Frame(bs).value)).1
    decreases |bs|
  {
    if |bs| >= RecordWidth {
      var chunk := bs[..RecordWidth];
      var rest := bs[RecordWidth..];
      if RawRecord(chunk).Ok? {
        var (s1, r1) := Correct(s, RawRecord(chunk).value);
        ReadRecordsStaged(s1, rest);
        if Frame(bs).Ok? {
          var cs := Frame(bs).value;
          assert cs == [chunk] + Frame(rest).value;
          assert cs[0] == chunk && cs[1..] == Frame(rest).value;
          if AllValid(cs) {
            assert AllValid(cs[1..]) by {
              forall i | 0 <= i < |cs[1..]|
                ensures ValidChunk(cs[1..][i])
              {
                assert cs[1..][i] == cs[i + 1];
              }
            }
            assert RawRecords(cs)[0] == RawRecord(chunk).value;
            assert RawRecords(cs)[1..] == RawRecords(cs[1..]);
          } else {
            var i :| 0 <= i < |cs| && !ValidChunk(cs[i]);
            assert i > 0;
            assert cs[1..][i - 1] == cs[i];
            assert !AllValid(cs[1..]);
          }
        }
      } else {
        if Frame(bs).Ok? {
          assert Frame(bs).value[0] == chunk;
        }
      }
    }
  }

  /** The `k`-th full five-byte record of a stream. */
  function Chunk(bs: seq<byte>, k: nat): (c: seq<byte>)
    requires k < |bs| / RecordWidth
    ensures |c| == RecordWidth
  {
    bs[k * RecordWidth..k * RecordWidth + RecordWidth]
  }

  /** The records after the first are the records of the rest. */
  lemma ChunkShift(bs: seq<byte>, k: nat)
    requires RecordWidth <= |bs| && k < |bs[RecordWidth..]| / RecordWidth
    ensures k + 1 < |bs| / RecordWidth
    ensures Chunk(bs, k + 1) == Chunk(bs[RecordWidth..], k)
  {
    var lo := k * RecordWidth + RecordWidth;
    assert (k + 1) * RecordWidth == lo;
    forall i | 0 <= i < RecordWidth
      ensures Chunk(bs, k + 1)[i] == Chunk(bs[RecordWidth..], k)[i]
    {
      assert Chunk(bs, k + 1)[i] == bs[lo + i];
      assert Chunk(bs[RecordWidth..], k)[i] == bs[RecordWidth..][lo - RecordWidth + i];
    }
  }

  /** One step of the reader: an invalid first record is the error, and a
      valid one leaves the outcome to the rest of the stream. */
  lemma ReadRecordsStep(s: Offsets, bs: seq<byte>)
    requires RecordWidth <= |bs|
    ensures RawRecord(bs[..RecordWidth]).Err? ==>
      ReadRecords(s, bs) == Err(RawRecord(bs[..RecordWidth]).error)
    ensures RawRecord(bs[..RecordWidth]).Ok? ==>
      var rest := ReadRecords(Correct(s, RawRecord(bs[..RecordWidth]).value).0, bs[RecordWidth..]);
      rest.Err? ==> ReadRecords(s, bs) == Err(rest.error)
  {
  }

  /** Which error a failed read reports when a record is invalid.  Records
      are read in stream order, so the first full record that does not
      decode and classify decides the error. */
  lemma {:induction false} ReadRecordsFirstInvalid(s: Offsets, bs: seq<byte>, k: nat)
    requires k < |bs| / RecordWidth && !ValidChunk(Chunk(bs, k))
    requires forall j :: 0 <= j < k ==> ValidChunk(Chunk(bs, j))
    ensures ReadRecords(s, bs) == Err(RawRecord(Chunk(bs, k)).error)
    decreases k
  {
    assert Chunk(bs, 0) == bs[..RecordWidth];
    ReadRecordsStep(s, bs);
    if k > 0 {
      var rest := bs[RecordWidth..];
      ValidPrefixShift(bs, k);
      ChunkShift(bs, k - 1);
      ReadRecordsFirstInvalid(Correct(s, RawRecord(bs[..RecordWidth]).value).0, rest, k - 1);
    }
  }

  /** Valid leading records stay valid leading records of the rest. */
  lemma ValidPrefixShift(bs: seq<byte>, k: nat)
    requires 0 < k <= |bs| / RecordWidth
    requires forall j :: 0 <= j < k ==> ValidChunk(Chunk(bs, j))
    ensures |bs[RecordWidth..]| / RecordWidth == |bs| / RecordWidth - 1
    ensures forall j :: 0 <= j < k - 1 ==> ValidChunk(Chunk(bs[RecordWidth..], j))
  {
    var rest := bs[RecordWidth..];
    assert |bs| / RecordWidth == |rest| / RecordWidth + 1;
    forall j | 0 <= j < k - 1
      ensures ValidChunk(Chunk(rest, j))
    {
      ChunkShift(bs, j);
      assert ValidChunk(Chunk(bs, j + 1));
    }
  }

  /** Which error a failed read reports when every full record is valid:
      the short tail, with its length. */
  lemma {:induction false} ReadRecordsShortTail(s: Offsets, bs: seq<byte>)
    requires forall k :: 0 <= k < |bs| / RecordWidth ==> ValidChunk(Chunk(bs, k))
    requires |bs| % RecordWidth != 0
    ensures ReadRecords(s, bs) == Err(TruncatedRecord(|bs| % RecordWidth))
    decreases |bs|
  {
    if |bs| >= RecordWidth {
      var rest := bs[RecordWidth..];
      assert |bs| % RecordWidth == |rest| % RecordWidth;
      assert |bs| / RecordWidth == |rest| / RecordWidth + 1;
      assert Chunk(bs, 0) == bs[..RecordWidth];
      assert ValidChunk(Chunk(bs, 0));
      forall k | 0 <= k < |rest| / RecordWidth
        ensures ValidChunk(Chunk(rest, k))
      {
        ChunkShift(bs, k);
        assert ValidChunk(Chunk(bs, k + 1));
      }
      ReadRecordsStep(s, bs);
      ReadRecordsShortTail(Correct(s, RawRecord(bs[..RecordWidth]).value).0, rest);
    }
  }

  /** A single valid header record reads back as its header. */
  lemma ReadHeaderVector(bs: seq<byte>)
    requires bs == [0x10, 0x00, 0x00, 0x00, 0x00]
    ensures ReadRecords(Initial, bs) == Ok([RaceHeader(1, 0, 0, 0, 0)])
  {
    var h := RaceHeader(1, 0, 0, 0, 0);
    assert ReadRecords(Initial, bs) == Ok([h] + []) by {
      HeaderChunk(bs);
      assert bs[..RecordWidth] == bs && bs[RecordWidth..] == [];
      assert ReadRecords(Initial, []) == Ok([]);
    }
    assert [h] + [] == [h];
  }

  /** The header chunk of the reader's test decodes to race 1. */
  lemma HeaderChunk(bs: seq<byte>)
    requires bs == [0x10, 0x00, 0x00, 0x00, 0x00]
    ensures RawRecord(bs) == Ok(RaceHeader(1, 0, 0, 0, 0))
  {
    assert IsBcd(0x10) && IsBcd(0x00) && DecodeLenient(0x10) == 1 && DecodeLenient(0x00) == 0;
    ValidChunkRecord(bs, [1, 0, 0, 0, 0]);
    assert ClassOf(1) == HeaderKind;
  }

  /** A chunk of valid bytes decoding to `ints` reads as the record its
      type code selects, or fails naming an unknown code. */
  lemma ValidChunkRecord(chunk: seq<byte>, ints: seq<nat>)
    requires |chunk| == RecordWidth && |ints| == RecordWidth
    requires forall i :: 0 <= i < RecordWidth ==> IsBcd(chunk[i]) && DecodeLenient(chunk[i]) == ints[i]
    ensures KnownCode(ints[0]) ==> RawRecord(chunk) == Ok(Make(ClassOf(ints[0]), ints))
    ensures !KnownCode(ints[0]) ==> RawRecord(chunk) == Err(UnknownType(ints[0]))
  {
    assert DecodeAllLenient(chunk) == ints;
    if KnownCode(ints[0]) {
      MakeFieldsRoundTrip(RawRecord(chunk).value);
    }
  }

  /** A record whose type byte decodes to 99 stops the read. */
  lemma ReadUnknownTypeVector(bs: seq<byte>)
    requires bs == [0x99, 0x00, 0x00, 0x00, 0x00]
    ensures ReadRecords(Initial, bs) == Err(UnknownType(99))
  {
    assert IsBcd(0x99) && IsBcd(0x00) && DecodeLenient(0x99) == 99 && DecodeLenient(0x00) == 0;
    ValidChunkRecord(bs, [99, 0, 0, 0, 0]);
    assert bs[..RecordWidth] == bs;
  }

  /** A record with a nibble above nine stops the read. */
  lemma ReadInvalidDigitVector(bs: seq<byte>)
    requires bs == [0x10, 0x0A, 0x00, 0x00, 0x00]
    ensures ReadRecords(Initial, bs) == Err(InvalidDigit(Tens, 0x0A))
  {
    assert DecodeStrict(bs[1]) == Err(InvalidDigit(Tens, 0x0A));
    assert DecodeAllStrict(bs[1..]) == Err(InvalidDigit(Tens, 0x0A));
    assert bs[..RecordWidth] == bs;
  }

  /** Every byte is decoded before the type code is looked up, so a bad
      digit wins over an unknown type: 0x99 decodes to the unknown code 99,
      yet the read stops at the tens check of 0x0A. */
  lemma ReadDigitBeforeTypeVector(bs: seq<byte>)
    requires bs == [0x99, 0x0A, 0x00, 0x00, 0x00]
    ensures ReadRecords(Initial, bs) == Err(InvalidDigit(Tens, 0x0A))
  {
    assert DecodeStrict(bs[1]) == Err(InvalidDigit(Tens, 0x0A));
    assert DecodeAllStrict(bs[1..]) == Err(InvalidDigit(Tens, 0x0A));
    assert bs[..RecordWidth] == bs;
  }

  /** The ultrak498 program run on a captured byte stream: every record is
      read first, so any error ends the run before a line is printed;
      otherwise it prints the AbsTime lines of the requested race. */
  method Session(bs: seq<byte>, raceid: nat) returns (r: Result<seq<Row>>)
    ensures r.Ok? <==> ReadRecords(Initial, bs).Ok?
    ensures r.Err? ==> r.error == ReadRecords(Initial, bs).error
    ensures |bs| % RecordWidth != 0 ==> r.Err?
    ensures r.Ok? ==>
      && AllShaped(ReadRecords(Initial, bs).value)
      && r.value == Selected(ReadRecords(Initial, bs).value, raceid)
  {
    var read := ReadRecords(Initial, bs);
    if read.Err? {
      return Err(read.error);
    }
    forall i | 0 <= i < |read.value|
      ensures Shaped(read.value[i])
    {
      ClassifiedShape(read.value[i]);
    }
    var rows := FilterRows(read.value, raceid);
    return Ok(rows);
  }
}
